=== FILE: README.md ===
# Field Notes session core, modelled in Dafny

Field Notes (`app.js`) is a browser app for field sampling. The user opens
a *location* (a project name, a note, and an ID derived from the clock).
They take photos for numbered *samples* at that location, then save
everything into a folder they picked:

- one JPEG per photo;
- a CSV sheet;
- a JSON record;
- plus an entry per photo in a bounded activity log.

This project models that session core as pure functions over an immutable
state, and proves what the code promises about names, ordering and the log.

| file | module | what it models |
|---|---|---|
| `wrappers.dfy` | `Wrappers` | `Option`, used for the nullable fields of `state` |
| `text.dfy` | `Text` | the JavaScript string built-ins the core uses: `String(n)`, `padStart`, `replace(/[^0-9]/g, "")`, `join`, and `split` as the reader of a joined text |
| `naming.dfy` | `Naming` | `safeName`, `nowString`, the location ID, the sample ID and the photo filename |
| `activity_log.dfy` | `ActivityLog` | `pushLog`: newest first, at most twenty entries |
| `session.dfy` | `Session` | `state`, plus the `btnNewLoc`, `snapPhoto`, `btnNextSample` and `btnClearAll` handlers, and the session invariant |
| `export.dfy` | `Export` | `makeCSV`, and the record handed to `JSON.stringify` |
| `storage.dfy` | `Storage` | the `btnCloseSave` guards, and `saveLocation` as an ordered list of effects |

How handlers are modelled:

- Each handler is a function from the old state to a `Step`: the new state
  plus `Done` or `Rejected(reason)`.
- A rejected step carries the old state unchanged. The source shows a toast
  and returns before touching `state`.
- A photo is stored as the inputs its names are built from: the location ID,
  the sample index and the per-sample sequence number. `SampleIdOf` and
  `FilenameOf` give back the `sampleId` and `filename` strings that the
  source stores. `Session.SnapNamesAsSource` shows that these equal what
  `snapPhoto` computes.
- A save is a `SavePlan` computed up front, turned into a list of effects
  in the order the source awaits them:
  1. open the folder;
  2. for each photo, write it, then log it;
  3. write the CSV;
  4. write the JSON;
  5. mark the session saved.

  `Run` applies the effects that touch `state`.

Details of the naming and capture code the model keeps:

- Sample IDs are padded to at least three digits. `padStart` never
  truncates, so index 1000 gives `S1000` (app.js:208), past the
  `S001, S002, ...` the comment at app.js:7 suggests.
- Sequence numbers are padded to at least two digits, so the hundredth
  photo of a sample ends in `-100.jpg` (app.js:211-213).
- `snapPhoto` refuses when there is no location (app.js:175), when the
  camera is not ready (app.js:181), and when `toBlob` yields no image
  (app.js:201).

## Model

| member | source | states |
|---|---|---|
| Text.Decimal | app.js:208 | `String(n)` for a non-negative count: non-empty, all digits, one digit exactly below 10, no leading zero unless n is 0, last digit n mod 10 |
| Text.DecimalRoundTrip | app.js:208 | parsing `String(n)` gives n back |
| Text.DecimalInjective | app.js:208 | different numbers have different numerals |
| Text.IntString | app.js:57-63 | `String(y)` for any year: a non-negative year gives digits that parse back to it; a negative one gives `-` followed by digits that parse back to its magnitude |
| Text.PadStart | app.js:208 | `padStart` pads to at least `width` and never truncates: the input is the suffix, and the rest is the fill character |
| Text.PaddedDecimalRoundTrip | app.js:208-213 | a zero-padded numeral is all digits and parses to the number it pads |
| Text.KeepDigits | app.js:279 | `replace(/[^0-9]/g, "")` keeps only digits, never lengthens the text, and turns a text without digits into the empty text |
| Text.KeepDigitsAppend | app.js:279 | stripping non-digits distributes over concatenation |
| Text.KeepDigitsOfDigits | app.js:279 | a text of digits is left as it is |
| Text.SplitJoinRoundTrip | app.js:402 | splitting `lines.join(d)` at `d` gives the lines back, when no line holds `d` |
| Naming.SafeName | app.js:51-53 | same length; name characters (`a-zA-Z0-9_-`) kept in place; every other character becomes `_`; the result holds only name characters |
| Naming.SafeNameIdempotent | app.js:51-53 | `safeName(safeName(s)) == safeName(s)` |
| Naming.SafeNameFixedPoint | app.js:51-53 | `safeName` leaves a text unchanged exactly when it holds only name characters |
| Naming.TwoDigits | app.js:58-62 | `("0" + x).slice(-2)` is two digits |
| Naming.TwoDigitsIsZeroPrefixedSlice | app.js:58-62 | the two-digit field is the last two characters of `"0" + String(x)` |
| Naming.SmallTwoDigits | app.js:58-62 | for x below 100 the field parses back to x |
| Naming.NowString | app.js:55-64 | the timestamp is 11 characters longer than the year's numeral |
| Naming.TimestampShape | app.js:55-64 | year, month, day, a space, hours, minutes, seconds, at fixed offsets after the year |
| Naming.TimestampLayout | app.js:55-64 | the timestamp cut at its field boundaries gives the year's text, the two-digit month, day, a space, then hours, minutes and seconds |
| Naming.TimestampFieldRoundTrip | app.js:55-64 | any one two-digit field of the timestamp parses back to its clock component |
| Naming.TimestampRoundTrip | app.js:55-64 | each two-digit field of the timestamp parses back to the clock reading (month as `getMonth() + 1`) |
| Naming.TimestampYearRoundTrip | app.js:57-63 | the leading year field parses back to the year |
| Naming.LocationId | app.js:279 | `L` followed only by digits |
| Naming.LocationIdOfClock | app.js:278-279 | the location ID of a clock reading is `L`, the year's digits, then the six two-digit fields |
| Naming.LocationIdInjective | app.js:278-279 | two valid clock readings with non-negative years and the same location ID are the same reading |
| Naming.SampleId | app.js:208 | `S` plus the index zero-padded to three digits, or the numeral itself when it is longer; it parses back to the sample index |
| Naming.SampleIdInjective | app.js:208 | different sample indexes never share a sample ID |
| Naming.SampleIdExamples | app.js:208 | 7 gives `S007`, 42 gives `S042`, 1000 gives `S1000` |
| Naming.SampleIdHasNoDash | app.js:208 | a sample ID holds no `-` |
| Naming.PhotoFilename | app.js:211-213 | the filename ends in `.jpg` |
| Naming.PhotoFilenameInjective | app.js:208-213 | at one location, a filename determines its sample ID and sequence number |
| Naming.SeqToken | app.js:211-213 | the sequence number zero-padded to two digits, or the numeral itself when it is longer; all digits, and it parses back to the number |
| Naming.PhotoFilenameParts | app.js:211-213 | the filename is the location ID, `-`, the sample ID, `-`, the padded sequence number and `.jpg`, each at its own offset |
| Naming.PhotoFilenameAvoids | app.js:211-213 | a filename adds no character other than digits and `-.jpg` to the location ID and sample ID |
| ActivityLog.PushLog | app.js:426-430 | the new entry is first; below twenty entries the old log follows whole; at twenty or more its last entry is dropped; the log stays within twenty |
| ActivityLog.PushLogKeepsNewest | app.js:426-430 | one push equals "put in front, keep the newest twenty" |
| ActivityLog.PushAllKeepsNewest | app.js:426-430 | pushing a run of entries equals putting them in front newest first and keeping twenty |
| ActivityLog.PushAllBounded | app.js:426-430 | the log grows by the number of entries pushed, up to twenty, and no further |
| ActivityLog.LogHoldsLastTwenty | app.js:426-430 | from an empty log, after twenty or more pushes the log is exactly the last twenty entries, newest first |
| Session.NewLocation | app.js:262-299 | refused when the note or the project is empty (the note is checked first); otherwise the project is set, the location ID is `L` plus the clock's digits, photos are empty, the sample index is 1, and the session is clean; GPS, the log and the folder are kept |
| Session.NewLocationPreservesWellFormed | app.js:262-299 | a new location keeps the session invariant |
| Session.SourceCountIsCountSample | app.js:209-210 | counting photos by sample ID string agrees with counting them by sample index |
| Session.Snap | app.js:174-224 | refused without a location (first), when the camera is not ready, or when no image came back, and a refusal changes nothing; otherwise exactly the next photo is appended, the session becomes dirty, and nothing else changes |
| Session.SnapNamesAsSource | app.js:208-219 | the appended photo has the current sample index and sequence number one more than the photos already carrying that sample ID string |
| Session.NextPhoto | app.js:208-219 | the next photo is at the current location, for the current sample, holds the captured image, and is numbered from 1 to N + 1 |
| Session.NextPhotoFreshName | app.js:208-219 | in a well-formed session the next photo's filename differs from every existing photo's |
| Session.SnapPreservesWellFormed | app.js:174-224 | a snap keeps the session invariant |
| Session.NextSample | app.js:409-412 | only the sample index moves on, by one |
| Session.NextSamplePreservesWellFormed | app.js:409-412 | advancing the sample keeps the session invariant |
| Session.NextSampleStartsAtOne | app.js:409-412 | after advancing, no photo belongs to the new sample, so its first photo is numbered 1 |
| Session.ClearAll | app.js:414-420 | without confirmation nothing changes; with it the photos go and the session is dirty; location and sample index stay |
| Session.ClearAllPreservesWellFormed | app.js:414-420 | clearing keeps the session invariant |
| Session.InitialWellFormed | app.js:3-16 | the start state satisfies the invariant |
| Session.SnapAllNumbersInOrder | app.js:208-219 | N snaps of one sample append N photos numbered on from the existing count, in capture order |
| Session.SnapAllKeepsTheRest | app.js:215-223 | snapping changes only the photos and the dirty flag |
| Session.FreshLocationNumbersFromOne | app.js:208-219 | at a fresh location N snaps give filenames numbered 1..N, in capture order |
| Session.InPlaceFilenamesDiffer | app.js:208-213 | two photos in place at different positions have different filenames |
| Session.FilenamesUnique | app.js:208-219 | in a well-formed session no two photos share a filename |
| Export.LatFieldEmpty | app.js:392 | the `gps_lat` cell is empty exactly when there is no reading, no latitude, or an empty latitude; otherwise it is the latitude |
| Export.LonFieldEmpty | app.js:393 | the same for `gps_lon` |
| Export.CsvTable | app.js:388-400 | the table has 7 + N rows; their contents are stated by `HeadLines`, `PhotoLine` and `JsonMatchesCsv` |
| Export.HeadLines | app.js:388-396 | the seven head lines are `project,…`, `locationId,…`, `note,…`, `gps_lat,…`, `gps_lon,…`, an empty line and `sampleId,filename` |
| Export.PhotoLine | app.js:398-400 | line 7 + i is photo i's sample ID and filename joined by `,` |
| Export.MakeCsv | app.js:387-403 | the sheet opens with the line `project,<project>` and a line break |
| Export.SheetEndsWithHeader | app.js:387-403 | without photos the sheet ends with a line break and `sampleId,filename` |
| Export.TableEndsWithRow | app.js:402 | a joined table whose last row is `[a, b]` ends with a line break and `a,b` |
| Export.CsvLinesRead | app.js:387-403 | the sheet splits into 7 + N lines: `project,…`, `locationId,…`, `note,…`, `gps_lat,…`, `gps_lon,…`, an empty line, `sampleId,filename`, then `sampleId,filename` of each photo in capture order |
| Export.CsvWithoutGps | app.js:392-393 | without a GPS reading the coordinate lines are `gps_lat,` and `gps_lon,` |
| Export.CsvCellsRead | app.js:387-403 | splitting each line at `,` gives back every row but the empty one, when no cell holds a comma or line break |
| Export.MakeJson | app.js:366-375 | the record holds the project, the GPS reading and the location as `state` holds them, and its photo list is the filenames in capture order |
| Export.JsonMatchesCsv | app.js:366-402 | for every state, row 7 + i of the sheet is photo i's sample ID and the i-th JSON photo name, and the table has 7 rows more than the JSON photo list |
| Export.JsonMatchesCsvText | app.js:366-402 | read back from the sheet's text, photo line i splits into the sample ID and the i-th JSON photo name, when no cell holds a comma or line break |
| Storage.FolderName | app.js:340-341 | the folder name is as long as its three parts and two `_`, and its last `|note|` characters are name characters whatever the note holds |
| Storage.FolderNameEndsInSafeNote | app.js:340-341 | the folder is `created_locationId_` followed by the note with unsafe characters replaced |
| Storage.FolderNameIgnoresUnsafeChars | app.js:340-341 | notes that differ only in replaced characters share a folder |
| Storage.EntriesAre | app.js:348-355 | entry i of a save is the project, the sample ID and the filename of photo i |
| Storage.PlanOutcome | app.js:338-385 | running a save plan logs every photo in order, then marks the session saved, and changes nothing else |
| Storage.SaveOutcome | app.js:338-385 | a completed save leaves the state with the log pushed by one entry per photo and `dirty` false; nothing else changes |
| Storage.EffectsEnds | app.js:338-384 | a save plan opens its folder first and marks the session saved last |
| Storage.SaveEffects | app.js:338-385 | a save performs two effects per photo plus four; the first opens the location's folder and the last marks the session saved |
| Storage.CloseSave | app.js:320-336 | refused without a location (first), then without a folder; a refusal changes nothing and performs no effect; otherwise it performs exactly the save's effects, ending with the log pushed by one entry per photo and `dirty` false |
| Storage.PlanAfterPhotos | app.js:348-355 | after the folder and j photos of any plan, exactly those j photos have been written and logged, in order, and nothing else in `state` has changed |
| Storage.SavePhotoEffects | app.js:348-355 | photo j is written under its filename by effect 1 + 2j, and logged by the next effect |
| Storage.SaveAfterPhotos | app.js:348-355 | after 1 + 2j effects of a save, the log holds the first j photos' entries pushed in order, and the writes are those j photos, in order |
| Storage.PlanPrefixOnlyLogs | app.js:338-385 | only the last effect marks the session saved; every earlier point changes at most the log |
| Storage.InterruptedSaveStaysDirty | app.js:329-384 | a save that stops part way (the handler catches and shows "Save failed.") has changed at most the log, and leaves `dirty` as it was |
| Storage.PlanWrites | app.js:348-381 | a plan writes its photos in order, then the sheet, then the record, and nothing else |
| Storage.SaveWrites | app.js:348-381 | a save writes each photo's image under its filename in order, then `<locationId>.csv` with the sheet, then `<locationId>.json` with the record |
| Storage.PlanNamesDistinct | app.js:348-381 | the writes go to distinct names when the photo names are distinct and differ from the sheet and record names |
| Storage.SaveWriteNamesDistinct | app.js:348-381 | in a well-formed session no write of a save overwrites another |
| Storage.RecordNamesWrittenFiles | app.js:348-371 | the record's photo list names exactly the image files the save writes, in the order it writes them |
| Storage.SaveAgainRepeatsEffects | app.js:320-385 | saving again right after a save writes the same files again and logs every photo again |
| Storage.SavePreservesWellFormed | app.js:320-385 | a save keeps the session invariant |

## Left out

- Inputs are taken already trimmed: `value.trim()` (app.js:263-264) happens before `NewLocation` is called.
- `confirm("Clear all photos?")` in `btnClearAll` is a `bool` argument to `ClearAll`.
- The camera is an input to `Snap`. The video's `readyState` and the result of `toBlob` become the `Capture` value (`NotReady`, `NoBlob`, or a frame). The canvas, zoom, macro mode and flash are not modelled.
- `Snap` is one atomic step. In the source, `snapPhoto` awaits `toBlob` (app.js:193) between the location check (175) and the reads of `currentSampleIndex`, `photos` and `currentLoc` (208-215), so a handler running during that wait could change them. The model does not interleave handlers.
- The save is one atomic step. `saveLocation` awaits at every file operation (app.js:343-381), iterates the live `state.photos` (348), and builds the sheet (358) and the record (366-371) only after the loop, so a snap or a clear during those waits would change what is written, and `updateDirty(false)` (384) would then mark that changed state as saved. The up-front `SavePlan` equals the source's late reads only when no other handler runs during the save.
- GPS coordinates are kept as the text JavaScript would render for them (`Option<string>`). Number-to-text conversion is not modelled.
- `state.gps` is an input. The start-up code (`init`, app.js:516) and the `btnGPS` handler (app.js:468) set it from `getGPS()`; the geolocation call is not modelled, so the reading `makeCSV` (app.js:392-393) and the JSON record (app.js:369) use is whatever the state holds.
- The clock is an input (`Clock`), not `new Date()`.
- `JSON.stringify(…, null, 2)` formatting is not modelled. The JSON file's content is the record it serialises (`JsonRecord`).
- File-system failures are not modelled beyond the point of interruption. `InterruptedSaveStaysDirty` covers a save that stops part way. The folder and file handles, `createWritable` and the bytes on disk are not modelled.
- `SafeName`: Dafny strings are sequences of Unicode scalar values, while JavaScript's `replace(/[^a-zA-Z0-9_-]/g, "_")` works on UTF-16 code units. A character outside the Basic Multilingual Plane becomes one `_` here but two in the source ("a😀" gives "a_" here and "a__" in JavaScript). Its length claim is therefore counted in scalar values. The same holds for every string length in the model.
- `LocationIdInjective`: holds only for non-negative years. `String(y)` of a negative year carries a `-`, which `replace(/[^0-9]/g, "")` drops, so years -2024 and 2024 give the same location ID.
- `PushLog`: `renderLog` (the DOM rendering of the log) is not modelled.
- Dirty-badge text, toasts, the gallery, the viewer and the sample/photo mini counter (`updateMiniCounter`) are display only and not modelled.
- `btnPickFolder` (`showDirectoryPicker`) is not modelled. The folder is the `rootDir` field, present or absent.
- Camera start and stop, zoom, macro mode, the unfinished auto-save toggle and the PWA install prompt are not modelled. None of them touches the session fields the core reads. The rest of the start-up code only disables the save button.
- CSV cells are not quoted, as in the source. `CsvCellsRead` therefore needs cells free of commas and line breaks, and `CsvLinesRead` needs them free of line breaks. A note holding a comma reads back as more than two cells.

=== FILE: activity_log.dfy ===
/** The bounded save log (app.js `pushLog`): newest entry first, at most
    twenty entries. */
module ActivityLog {

  /** One log row: the project, the sample ID and the photo filename written. */
  datatype LogEntry = LogEntry(project: string, sample: string, filename: string)

  /** The log never holds more entries than this. */
  const MaxEntries: nat := 20

  /** `pushLog`: `unshift` the entry, then `pop` one entry off the end if the
      log has grown past the limit. */
  function PushLog(log: seq<LogEntry>, e: LogEntry): (r: seq<LogEntry>)
    ensures |r| >= 1 && r[0] == e
    ensures |log| < MaxEntries ==> r[1..] == log
    ensures |log| >= MaxEntries ==> r[1..] == log[..|log| - 1]
    ensures |log| <= MaxEntries ==> |r| <= MaxEntries
  {
    var pushed := [e] + log;
    if |pushed| > MaxEntries then pushed[..|pushed| - 1] else pushed
  }

  /** Pushes the entries one after another, in the order given. */
  function PushAll(log: seq<LogEntry>, es: seq<LogEntry>): seq<LogEntry>
    decreases |es|
  {
    if es == [] then log else PushAll(PushLog(log, es[0]), es[1..])
  }

  /** The first `MaxEntries` elements, or all of them when there are fewer. */
  function Newest<T>(s: seq<T>): (r: seq<T>)
    ensures |r| == if |s| <= MaxEntries then |s| else MaxEntries
    ensures r == s[..|r|]
  {
    if |s| <= MaxEntries then s else s[..MaxEntries]
  }

  function Reverse<T>(s: seq<T>): (r: seq<T>)
    ensures |r| == |s|
  {
    if s == [] then [] else Reverse(s[1..]) + [s[0]]
  }

  /** On a log within the limit, one push is "put in front, keep the newest". */
  lemma PushLogKeepsNewest(log: seq<LogEntry>, e: LogEntry)
    requires |log| <= MaxEntries
    ensures PushLog(log, e) == Newest([e] + log)
  {
  }

  lemma AppendAssoc<T>(a: seq<T>, b: seq<T>, c: seq<T>)
    ensures a + b + c == a + (b + c)
  {
  }

  /** Cutting to the newest twenty before or after putting more entries in
      front gives the same log. */
  lemma NewestAbsorbs<T>(p: seq<T>, q: seq<T>)
    ensures Newest(p + Newest(q)) == Newest(p + q)
  {
    if |q| > MaxEntries {
      var a, b := p + Newest(q), p + q;
      assert |a| >= MaxEntries && |b| >= MaxEntries;
      forall i | 0 <= i < MaxEntries ensures a[i] == b[i] {
        if i >= |p| {
          assert a[i] == Newest(q)[i - |p|] == q[i - |p|];
        }
      }
      assert Newest(a) == a[..MaxEntries];
      assert Newest(b) == b[..MaxEntries];
      assert a[..MaxEntries] == b[..MaxEntries];
    }
  }

  /** After any number of pushes onto a log within the limit, the log is the
      pushed entries newest first, followed by the old log, cut to the newest
      twenty. */
  lemma {:induction false} PushAllKeepsNewest(log: seq<LogEntry>, es: seq<LogEntry>)
    requires |log| <= MaxEntries
    ensures PushAll(log, es) == Newest(Reverse(es) + log)
    decreases |es|
  {
    if es == [] {
      assert Reverse(es) + log == log;
    } else {
      var next := PushLog(log, es[0]);
      calc {
        PushAll(log, es);
        PushAll(next, es[1..]);
        { PushAllKeepsNewest(next, es[1..]); }
        Newest(Reverse(es[1..]) + next);
        { PushLogKeepsNewest(log, es[0]); }
        Newest(Reverse(es[1..]) + Newest([es[0]] + log));
        { NewestAbsorbs(Reverse(es[1..]), [es[0]] + log); }
        Newest(Reverse(es[1..]) + ([es[0]] + log));
        { AppendAssoc(Reverse(es[1..]), [es[0]], log); }
        Newest(Reverse(es) + log);
      }
    }
  }

  /** The log never grows past the limit, whatever is pushed onto it. */
  lemma PushAllBounded(log: seq<LogEntry>, es: seq<LogEntry>)
    requires |log| <= MaxEntries
    ensures |PushAll(log, es)| == if |es| + |log| <= MaxEntries then |es| + |log| else MaxEntries
  {
    PushAllKeepsNewest(log, es);
  }

  /** The first `n` elements of a reversed sequence are the last `n`
      elements, reversed. */
  lemma {:induction false} ReverseTake<T>(s: seq<T>, n: nat)
    requires n <= |s|
    ensures Reverse(s)[..n] == Reverse(s[|s| - n..])
    decreases |s|
  {
    if n == |s| {
      assert s[|s| - n..] == s;
    } else {
      var t := s[1..];
      assert Reverse(s) == Reverse(t) + [s[0]];
      assert Reverse(s)[..n] == Reverse(t)[..n];
      ReverseTake(t, n);
      assert t[|t| - n..] == s[|s| - n..];
    }
  }

  /** Element i of the reversal is element i from the end. */
  lemma {:induction false} ReverseAt<T>(s: seq<T>, i: nat)
    requires i < |s|
    ensures Reverse(s)[i] == s[|s| - 1 - i]
    decreases |s|
  {
    assert Reverse(s) == Reverse(s[1..]) + [s[0]];
    if i < |s| - 1 {
      ReverseAt(s[1..], i);
    }
  }

  /** Starting from an empty log, once at least twenty entries have been
      pushed the log holds exactly the last twenty, newest first. */
  lemma LogHoldsLastTwenty(es: seq<LogEntry>)
    requires |es| >= MaxEntries
    ensures PushAll([], es) == Reverse(es[|es| - MaxEntries..])
    ensures forall i :: 0 <= i < MaxEntries ==> PushAll([], es)[i] == es[|es| - 1 - i]
  {
    var r := PushAll([], es);
    assert r == Newest(Reverse(es) + []) by {
      PushAllKeepsNewest([], es);
    }
    assert r == Reverse(es)[..MaxEntries] by {
      assert Reverse(es) + [] == Reverse(es);
    }
    ReverseTake(es, MaxEntries);
    forall i | 0 <= i < MaxEntries ensures r[i] == es[|es| - 1 - i] {
      ReverseAt(es, i);
    }
  }
}

=== FILE: export.dfy ===
/** What saving writes besides the images: the CSV sheet of `makeCSV` and
    the record that `saveLocation` hands to `JSON.stringify`. */
module Export {
  import opened Wrappers
  import opened Text
  import opened Naming
  import opened Session

  /** `state.gps?.lat ?? ""` */
  function LatField(gps: Option<GpsFix>): string {
    match gps
    case None => ""
    case Some(g) => g.lat.GetOr("")
  }

  /** `state.gps?.lon ?? ""` */
  function LonField(gps: Option<GpsFix>): string {
    match gps
    case None => ""
    case Some(g) => g.lon.GetOr("")
  }

  /** The cell is empty exactly when there is no reading, the reading has
      no latitude, or the latitude renders as the empty text. */
  lemma LatFieldEmpty(gps: Option<GpsFix>)
    ensures LatField(gps) == "" <==> gps.None? || gps.value.lat.None? || gps.value.lat.value == ""
    ensures gps.Some? && gps.value.lat.Some? ==> LatField(gps) == gps.value.lat.value
  {
  }

  lemma LonFieldEmpty(gps: Option<GpsFix>)
    ensures LonField(gps) == "" <==> gps.None? || gps.value.lon.None? || gps.value.lon.value == ""
    ensures gps.Some? && gps.value.lon.Some? ==> LonField(gps) == gps.value.lon.value
  {
  }

  /** One `[p.sampleId, p.filename]` row per photo, in order. */
  function PhotoRows(photos: seq<Photo>): (rows: seq<seq<string>>)
    ensures |rows| == |photos|
  {
    seq(|photos|, i requires 0 <= i < |photos| => [SampleIdOf(photos[i]), FilenameOf(photos[i])])
  }

  /** The first seven rows of `makeCSV`: five key/value rows, an empty row
      and the photo header. */
  function HeadRows(s: State): (rows: seq<seq<string>>)
    requires s.currentLoc.Some?
    ensures |rows| == 7
  {
    var loc := s.currentLoc.value;
    [ ["project", s.project],
      ["locationId", loc.locationId],
      ["note", loc.note],
      ["gps_lat", LatField(s.gps)],
      ["gps_lon", LonField(s.gps)],
      [],
      ["sampleId", "filename"] ]
  }

  /** The `rows` table `makeCSV` builds. */
  function CsvTable(s: State): (rows: seq<seq<string>>)
    requires s.currentLoc.Some?
    ensures |rows| == 7 + |s.photos|
  {
    HeadRows(s) + PhotoRows(s.photos)
  }

  /** `rows.map((r) => r.join(","))` */
  function CsvLines(rows: seq<seq<string>>): (lines: seq<string>)
    ensures |lines| == |rows|
  {
    seq(|rows|, i requires 0 <= i < |rows| => Join(rows[i], ","))
  }

  /** `makeCSV`: the lines joined with `\n`. No cell is quoted. The sheet
      opens with the project line. */
  function MakeCsv(s: State): (r: string)
    requires s.currentLoc.Some?
    ensures var first := "project," + s.project + "\n";
      |first| <= |r| && r[..|first|] == first
  {
    SheetStart(s);
    Join(CsvLines(CsvTable(s)), "\n")
  }

  /** The joined table starts with the project line. */
  lemma SheetStart(s: State)
    requires s.currentLoc.Some?
    ensures var r := Join(CsvLines(CsvTable(s)), "\n"); var first := "project," + s.project + "\n";
      |first| <= |r| && r[..|first|] == first
  {
    var lines := CsvLines(CsvTable(s));
    assert lines[0] == Join(["project", s.project], ",");
    JoinPair("project", s.project, ",");
    JoinFirst(lines, "\n");
  }

  /** Without photos the sheet ends with the photo header. */
  lemma SheetEndsWithHeader(s: State)
    requires s.currentLoc.Some? && s.photos == []
    ensures var r := MakeCsv(s); var last := "\n" + "sampleId,filename";
      |last| <= |r| && r[|r| - |last|..] == last
  {
    var lines := CsvLines(CsvTable(s));
    assert lines[6] == "sampleId,filename" by { HeadLines(s); }
    JoinEndsWith(lines, "\n", "sampleId,filename");
  }

  /** A sheet whose last row is `[a, b]` ends with the line `a,b`; with
      photos that row is the newest photo's (see `JsonMatchesCsv`). */
  lemma TableEndsWithRow(rows: seq<seq<string>>, a: string, b: string)
    requires |rows| >= 2 && rows[|rows| - 1] == [a, b]
    ensures var r := Join(CsvLines(rows), "\n"); var last := "\n" + (a + "," + b);
      |last| <= |r| && r[|r| - |last|..] == last
  {
    JoinPair(a, b, ",");
    JoinEndsWith(CsvLines(rows), "\n", a + "," + b);
  }

  lemma JoinEndsWith(parts: seq<string>, sep: string, last: string)
    requires |parts| >= 2 && parts[|parts| - 1] == last
    ensures var j := Join(parts, sep);
      |sep + last| <= |j| && j[|j| - |sep + last|..] == sep + last
  {
    JoinLast(parts, sep);
  }

  /** The joined text of two or more parts starts with the first part and
      the separator. */
  lemma JoinFirst(parts: seq<string>, sep: string)
    requires |parts| >= 2
    ensures var j := Join(parts, sep);
      |parts[0] + sep| <= |j| && j[..|parts[0] + sep|] == parts[0] + sep
  {
  }

  /** The joined text of two or more parts ends with the separator and the
      last part. */
  lemma {:induction false} JoinLast(parts: seq<string>, sep: string)
    requires |parts| >= 2
    ensures var j := Join(parts, sep); var tail := sep + parts[|parts| - 1];
      |tail| <= |j| && j[|j| - |tail|..] == tail
    decreases |parts|
  {
    var j := Join(parts, sep);
    var tail := sep + parts[|parts| - 1];
    if |parts| == 2 {
      assert Join(parts[1..], sep) == parts[1];
      assert j == parts[0] + tail;
    } else {
      var rest := Join(parts[1..], sep);
      JoinLast(parts[1..], sep);
      assert j == parts[0] + sep + rest;
      assert j[|j| - |tail|..] == rest[|rest| - |tail|..];
    }
  }

  /** A character that is in neither the parts nor the separator is not in
      the joined text. */
  lemma {:induction false} JoinAvoids(parts: seq<string>, sep: string, c: char)
    requires c !in sep
    requires forall i :: 0 <= i < |parts| ==> c !in parts[i]
    ensures c !in Join(parts, sep)
    decreases |parts|
  {
    if |parts| > 1 {
      JoinAvoids(parts[1..], sep, c);
    }
  }

  lemma JoinPair(a: string, b: string, sep: string)
    ensures Join([a, b], sep) == a + sep + b
  {
    assert [a, b][1..] == [b];
  }

  /** Splitting the joined lines of any table at `\n` gives the lines back,
      as long as no cell holds a line break. */
  lemma LinesRoundTrip(rows: seq<seq<string>>)
    requires |rows| >= 1
    requires forall i, j :: 0 <= i < |rows| && 0 <= j < |rows[i]| ==> '\n' !in rows[i][j]
    ensures Split(Join(CsvLines(rows), "\n"), '\n') == CsvLines(rows)
  {
    var lines := CsvLines(rows);
    forall i | 0 <= i < |lines| ensures '\n' !in lines[i] {
      JoinAvoids(rows[i], ",", '\n');
    }
    SplitJoinRoundTrip(lines, '\n');
  }

  /** The cells of a photo row hold neither a line break nor a comma when
      the photo's location ID holds neither. */
  lemma PhotoCellsAvoid(p: Photo, c: char)
    requires c == '\n' || c == ','
    requires c !in p.locationId
    ensures c !in SampleIdOf(p) && c !in FilenameOf(p)
  {
    assert c != 'S' && !IsDigit(c) && c !in "-.jpg";
    SampleIdAvoids(p.sample, c);
    PhotoFilenameAvoids(p.locationId, SampleId(p.sample), p.number, c);
  }

  /** No cell of the table holds `c`, given that the free-text fields and
      the photos' location IDs do not. */
  predicate FieldsAvoid(s: State, c: char)
    requires s.currentLoc.Some?
  {
    && c !in s.project
    && c !in s.currentLoc.value.locationId
    && c !in s.currentLoc.value.note
    && c !in LatField(s.gps)
    && c !in LonField(s.gps)
    && forall i :: 0 <= i < |s.photos| ==> c !in s.photos[i].locationId
  }

  lemma PhotoRowAvoids(photos: seq<Photo>, i: nat, c: char)
    requires c == '\n' || c == ','
    requires i < |photos| && c !in photos[i].locationId
    ensures |PhotoRows(photos)[i]| == 2
    ensures c !in PhotoRows(photos)[i][0] && c !in PhotoRows(photos)[i][1]
  {
    PhotoCellsAvoid(photos[i], c);
  }

  lemma PhotoRowsAvoid(photos: seq<Photo>, c: char)
    requires c == '\n' || c == ','
    requires forall i :: 0 <= i < |photos| ==> c !in photos[i].locationId
    ensures forall i, j :: 0 <= i < |photos| && 0 <= j < |PhotoRows(photos)[i]| ==> c !in PhotoRows(photos)[i][j]
  {
    var rows := PhotoRows(photos);
    forall i, j | 0 <= i < |photos| && 0 <= j < |rows[i]| ensures c !in rows[i][j] {
      PhotoRowAvoids(photos, i, c);
      if j != 0 {
        assert j == 1;
      }
    }
  }

  lemma TableAvoids(s: State, c: char)
    requires s.currentLoc.Some?
    requires c == '\n' || c == ','
    requires FieldsAvoid(s, c)
    ensures forall i, j :: 0 <= i < |CsvTable(s)| && 0 <= j < |CsvTable(s)[i]| ==> c !in CsvTable(s)[i][j]
  {
    var head, photos := HeadRows(s), PhotoRows(s.photos);
    PhotoRowsAvoid(s.photos, c);
    assert forall i, j :: 0 <= i < 7 && 0 <= j < |head[i]| ==> c !in head[i][j];
    assert CsvTable(s) == head + photos;
  }

  /** Splitting the sheet at `\n` gives back the joined rows. */
  lemma CsvSplitsIntoLines(s: State)
    requires s.currentLoc.Some?
    requires FieldsAvoid(s, '\n')
    ensures Split(MakeCsv(s), '\n') == CsvLines(CsvTable(s))
  {
    TableAvoids(s, '\n');
    LinesRoundTrip(CsvTable(s));
  }

  /** Photo i's line of the sheet. */
  lemma PhotoLine(s: State, i: nat)
    requires s.currentLoc.Some? && i < |s.photos|
    ensures CsvLines(CsvTable(s))[7 + i] == SampleIdOf(s.photos[i]) + "," + FilenameOf(s.photos[i])
  {
    var a, b := SampleIdOf(s.photos[i]), FilenameOf(s.photos[i]);
    assert CsvTable(s)[7 + i] == [a, b];
    JoinPair(a, b, ",");
  }

  /** The seven fixed lines of the sheet. */
  lemma HeadLines(s: State)
    requires s.currentLoc.Some?
    ensures var lines := CsvLines(CsvTable(s));
      && lines[0] == "project," + s.project
      && lines[1] == "locationId," + s.currentLoc.value.locationId
      && lines[2] == "note," + s.currentLoc.value.note
      && lines[3] == "gps_lat," + LatField(s.gps)
      && lines[4] == "gps_lon," + LonField(s.gps)
      && lines[5] == ""
      && lines[6] == "sampleId,filename"
  {
    JoinPair("project", s.project, ",");
    JoinPair("locationId", s.currentLoc.value.locationId, ",");
    JoinPair("note", s.currentLoc.value.note, ",");
    JoinPair("gps_lat", LatField(s.gps), ",");
    JoinPair("gps_lon", LonField(s.gps), ",");
    JoinPair("sampleId", "filename", ",");
  }

  /** The sheet, read back line by line: seven fixed lines and then one line
      per photo, in order. */
  lemma CsvLinesRead(s: State)
    requires s.currentLoc.Some?
    requires FieldsAvoid(s, '\n')
    ensures var lines := Split(MakeCsv(s), '\n');
      && |lines| == 7 + |s.photos|
      && lines[0] == "project," + s.project
      && lines[1] == "locationId," + s.currentLoc.value.locationId
      && lines[2] == "note," + s.currentLoc.value.note
      && lines[3] == "gps_lat," + LatField(s.gps)
      && lines[4] == "gps_lon," + LonField(s.gps)
      && lines[5] == ""
      && lines[6] == "sampleId,filename"
      && forall i :: 0 <= i < |s.photos| ==> lines[7 + i] == SampleIdOf(s.photos[i]) + "," + FilenameOf(s.photos[i])
  {
    CsvSplitsIntoLines(s);
    HeadLines(s);
    forall i | 0 <= i < |s.photos|
      ensures CsvLines(CsvTable(s))[7 + i] == SampleIdOf(s.photos[i]) + "," + FilenameOf(s.photos[i])
    {
      PhotoLine(s, i);
    }
  }

  /** Without a GPS reading the two coordinate lines carry empty values. */
  lemma CsvWithoutGps(s: State)
    requires s.currentLoc.Some? && s.gps.None?
    requires FieldsAvoid(s, '\n')
    ensures |Split(MakeCsv(s), '\n')| == 7 + |s.photos|
    ensures Split(MakeCsv(s), '\n')[3] == "gps_lat,"
    ensures Split(MakeCsv(s), '\n')[4] == "gps_lon,"
  {
    CsvLinesRead(s);
  }

  /** `a + "," + b` splits back into its two cells when neither holds a comma. */
  lemma SplitPair(a: string, b: string)
    requires ',' !in a && ',' !in b
    ensures Split(a + "," + b, ',') == [a, b]
  {
    assert a + "," + b == a + [','] + b;
    SplitAtFirstSeparator(a, b, ',');
    SplitWithoutSeparator(b, ',');
  }

  /** The sheet, read back cell by cell: every row but the empty one comes
      back exactly as built, as long as no cell holds a comma or a line
      break (cells are not quoted). */
  lemma CsvCellsRead(s: State)
    requires s.currentLoc.Some?
    requires FieldsAvoid(s, '\n') && FieldsAvoid(s, ',')
    ensures |Split(MakeCsv(s), '\n')| == |CsvTable(s)|
    ensures var lines := Split(MakeCsv(s), '\n');
      forall i :: 0 <= i < |lines| && i != 5 ==> Split(lines[i], ',') == CsvTable(s)[i]
  {
    var rows := CsvTable(s);
    CsvSplitsIntoLines(s);
    TableAvoids(s, ',');
    var lines := Split(MakeCsv(s), '\n');
    forall i | 0 <= i < |lines| && i != 5 ensures Split(lines[i], ',') == rows[i] {
      assert |rows[i]| == 2;
      assert ',' !in rows[i][0] && ',' !in rows[i][1];
      JoinPair(rows[i][0], rows[i][1], ",");
      assert rows[i] == [rows[i][0], rows[i][1]];
      SplitPair(rows[i][0], rows[i][1]);
    }
  }

  /** The record `saveLocation` serialises; its photo list is the filename
      of every photo, in order. */
  datatype JsonRecord = JsonRecord(project: string, gps: Option<GpsFix>, location: Location, photos: seq<string>)

  function MakeJson(s: State): (r: JsonRecord)
    requires s.currentLoc.Some?
    ensures r.project == s.project && r.gps == s.gps && r.location == s.currentLoc.value
    ensures |r.photos| == |s.photos|
    ensures forall i :: 0 <= i < |s.photos| ==> r.photos[i] == FilenameOf(s.photos[i])
  {
    JsonRecord(s.project, s.gps, s.currentLoc.value,
      seq(|s.photos|, i requires 0 <= i < |s.photos| => FilenameOf(s.photos[i])))
  }

  /** The JSON photo list and the filename column of the sheet name the
      same files in the same order: photo row i of the sheet is the sample
      ID and the i-th JSON photo. */
  lemma JsonMatchesCsv(s: State)
    requires s.currentLoc.Some?
    ensures |CsvTable(s)| == 7 + |MakeJson(s).photos|
    ensures forall i :: 0 <= i < |s.photos| ==>
      CsvTable(s)[7 + i] == [SampleIdOf(s.photos[i]), MakeJson(s).photos[i]]
  {
    TableTail(s);
    RowsName(s.photos, MakeJson(s).photos);
  }

  /** Past the seven head rows the table is the photo rows. */
  lemma TableTail(s: State)
    requires s.currentLoc.Some?
    ensures CsvTable(s)[7..] == PhotoRows(s.photos)
  {
  }

  /** Photo rows carry any list of names that agrees with the filenames. */
  lemma RowsName(photos: seq<Photo>, names: seq<string>)
    requires |names| == |photos|
    requires forall i :: 0 <= i < |photos| ==> names[i] == FilenameOf(photos[i])
    ensures forall i :: 0 <= i < |photos| ==> PhotoRows(photos)[i] == [SampleIdOf(photos[i]), names[i]]
  {
  }

  /** Read back from the sheet's text, photo line i splits into the sample
      ID and the i-th JSON photo, as long as no cell holds a comma or a line
      break. */
  lemma JsonMatchesCsvText(s: State)
    requires s.currentLoc.Some?
    requires FieldsAvoid(s, '\n') && FieldsAvoid(s, ',')
    ensures var lines := Split(MakeCsv(s), '\n');
      |lines| == 7 + |MakeJson(s).photos|
      && forall i :: 0 <= i < |s.photos| ==>
           Split(lines[7 + i], ',') == [SampleIdOf(s.photos[i]), MakeJson(s).photos[i]]
  {
    CsvCellsRead(s);
    JsonMatchesCsv(s);
  }
}

=== FILE: naming.dfy ===
/** Names and identifiers: the folder-safe form of a note, the capture
    timestamp, and the location, sample and photo identifiers derived from
    them (app.js: `safeName`, `nowString`, the `btnNewLoc` handler and
    `snapPhoto`). */
module Naming {
  import opened Text

  /** `[A-Za-z0-9_-]`: the characters `safeName` keeps. */
  predicate IsNameChar(c: char) {
    ('a' <= c <= 'z') || ('A' <= c <= 'Z') || IsDigit(c) || c == '_' || c == '-'
  }

  predicate AllNameChars(s: string) {
    forall i :: 0 <= i < |s| ==> IsNameChar(s[i])
  }

  /** `str.replace(/[^a-zA-Z0-9_-]/g, "_")`: every character outside the
      allowed set becomes `_`, allowed characters are left in place. */
  function SafeName(s: string): (r: string)
    ensures |r| == |s|
    ensures forall i :: 0 <= i < |s| ==> (IsNameChar(s[i]) ==> r[i] == s[i])
    ensures forall i :: 0 <= i < |s| ==> (!IsNameChar(s[i]) ==> r[i] == '_')
    ensures AllNameChars(r)
    decreases |s|
  {
    if s == [] then []
    else [if IsNameChar(s[0]) then s[0] else '_'] + SafeName(s[1..])
  }

  /** Sanitising an already sanitised name changes nothing. */
  lemma SafeNameIdempotent(s: string)
    ensures SafeName(SafeName(s)) == SafeName(s)
  {
    var once := SafeName(s);
    var twice := SafeName(once);
    assert forall i :: 0 <= i < |once| ==> twice[i] == once[i];
  }

  /** A name is left unchanged exactly when it already consists of allowed
      characters only. */
  lemma SafeNameFixedPoint(s: string)
    ensures SafeName(s) == s <==> AllNameChars(s)
  {
    if AllNameChars(s) {
      assert forall i :: 0 <= i < |s| ==> SafeName(s)[i] == s[i];
    }
  }

  /** A two-digit field of the timestamp: the tens and the units digit of `x`. */
  function TwoDigits(x: nat): (r: string)
    ensures |r| == 2 && AllDigits(r)
  {
    [DigitChar(x / 10 % 10), DigitChar(x % 10)]
  }

  /** `TwoDigits` is the source's `("0" + x).slice(-2)`: the last two
      characters of the numeral with a zero in front. */
  lemma TwoDigitsIsZeroPrefixedSlice(x: nat)
    ensures var t := "0" + Decimal(x); |t| >= 2 && TwoDigits(x) == t[|t| - 2..]
  {
    if x >= 10 {
      LastTwoAfterPrefix('0', Decimal(x / 10), DigitChar(x % 10));
    }
  }

  lemma LastTwoAfterPrefix(p: char, e: string, c: char)
    requires |e| >= 1
    ensures ([p] + (e + [c]))[|e|..] == [e[|e| - 1], c]
  {
  }

  lemma LastTwoDigitsArithmetic(x: nat)
    ensures 10 * (x / 10 % 10) + x % 10 == x % 100
  {
    var q, r := x / 100, x % 100;
    assert x == 100 * q + r;
    assert x / 10 == 10 * q + r / 10;
    assert x / 10 % 10 == r / 10;
    assert x % 10 == r % 10;
  }

  /** A two-digit field reads back as the component modulo 100, so as the
      component itself for every value a `Date` getter returns. */
  lemma TwoDigitsRoundTrip(x: nat)
    ensures ParseDecimal(TwoDigits(x)) == x % 100
  {
    ParseTwoDigits(TwoDigits(x));
    LastTwoDigitsArithmetic(x);
  }

  lemma SmallTwoDigits(x: nat)
    requires x < 100
    ensures ParseDecimal(TwoDigits(x)) == x
  {
    TwoDigitsRoundTrip(x);
  }

  /** The components `nowString` reads from a `Date`: `getFullYear()`,
      `getMonth()` (zero-based), `getDate()`, `getHours()`, `getMinutes()`
      and `getSeconds()`. */
  datatype Clock = Clock(year: int, monthIndex: nat, day: nat, hours: nat, minutes: nat, seconds: nat)
  {
    /** The ranges a `Date` guarantees for its getters. */
    predicate Valid() {
      monthIndex < 12 && 1 <= day <= 31 && hours < 24 && minutes < 60 && seconds < 60
    }
  }

  /** The `MMDD` part of the timestamp. */
  function DatePart(c: Clock): string {
    TwoDigits(c.monthIndex + 1) + TwoDigits(c.day)
  }

  /** The `hhmmss` part of the timestamp. */
  function TimePart(c: Clock): string {
    TwoDigits(c.hours) + TwoDigits(c.minutes) + TwoDigits(c.seconds)
  }

  /** `nowString()` for the given clock reading: `YYYYMMDD hhmmss`, the year
      as `String(year)` and every other field as two digits. */
  function NowString(c: Clock): (r: string)
    ensures |r| == |IntString(c.year)| + 11
  {
    IntString(c.year) + DatePart(c) + " " + TimePart(c)
  }

  /** A timestamp is the year, four digits, a space and six digits. */
  lemma TimestampShape(c: Clock)
    ensures var y := |IntString(c.year)|; var ts := NowString(c);
      && ts[..y] == IntString(c.year)
      && AllDigits(ts[y..y + 4])
      && ts[y + 4] == ' '
      && AllDigits(ts[y + 5..])
  {
    TimestampLayout(c);
  }

  /** Where the fields sit in a string laid out as `nowString` lays it out. */
  lemma TimestampSlices(ts: string, y: string, mo: string, dd: string, hh: string, mi: string, ss: string)
    requires |mo| == 2 && |dd| == 2 && |hh| == 2 && |mi| == 2 && |ss| == 2
    requires ts == y + (mo + dd) + " " + (hh + mi + ss)
    ensures var n := |y|;
      && |ts| == n + 11
      && ts[..n] == y && ts[n..n + 4] == mo + dd && ts[n + 4] == ' ' && ts[n + 5..] == hh + mi + ss
      && ts[n..n + 2] == mo && ts[n + 2..n + 4] == dd
      && ts[n + 5..n + 7] == hh && ts[n + 7..n + 9] == mi && ts[n + 9..n + 11] == ss
  {
  }

  /** The timestamp of a clock reading, cut at the field boundaries. */
  lemma TimestampLayout(c: Clock)
    ensures var n := |IntString(c.year)|; var ts := NowString(c);
      && ts[..n] == IntString(c.year) && ts[n..n + 4] == DatePart(c) && ts[n + 4] == ' ' && ts[n + 5..] == TimePart(c)
      && ts[n..n + 2] == TwoDigits(c.monthIndex + 1) && ts[n + 2..n + 4] == TwoDigits(c.day)
      && ts[n + 5..n + 7] == TwoDigits(c.hours) && ts[n + 7..n + 9] == TwoDigits(c.minutes)
      && ts[n + 9..n + 11] == TwoDigits(c.seconds)
  {
    TimestampSlices(NowString(c), IntString(c.year), TwoDigits(c.monthIndex + 1), TwoDigits(c.day),
                    TwoDigits(c.hours), TwoDigits(c.minutes), TwoDigits(c.seconds));
  }

  /** The clock component shown in field `i` of the timestamp, in the order
      month, day, hours, minutes, seconds. */
  function Field(c: Clock, i: nat): nat
    requires i < 5
  {
    if i == 0 then c.monthIndex + 1
    else if i == 1 then c.day
    else if i == 2 then c.hours
    else if i == 3 then c.minutes
    else c.seconds
  }

  /** Where field `i` starts, counted from the end of the year. */
  function FieldOffset(i: nat): nat
    requires i < 5
  {
    if i == 0 then 0 else if i == 1 then 2 else if i == 2 then 5 else if i == 3 then 7 else 9
  }

  lemma TimestampField(c: Clock, i: nat)
    requires i < 5
    ensures var at := |IntString(c.year)| + FieldOffset(i); var ts := NowString(c);
      at + 2 <= |ts| && ts[at..at + 2] == TwoDigits(Field(c, i))
  {
    TimestampLayout(c);
  }

  /** Field `i` of a timestamp reads back as the clock component it was
      made from. */
  lemma TimestampFieldRoundTrip(c: Clock, i: nat)
    requires c.Valid() && i < 5
    ensures var at := |IntString(c.year)| + FieldOffset(i); var ts := NowString(c);
      at + 2 <= |ts| && ParseDecimal(ts[at..at + 2]) == Field(c, i)
  {
    TimestampField(c, i);
    SmallTwoDigits(Field(c, i));
  }

  /** Every field of a timestamp reads back as the clock component it was
      made from. */
  lemma TimestampRoundTrip(c: Clock)
    requires c.Valid()
    ensures var n := |IntString(c.year)|; var ts := NowString(c);
      forall i :: 0 <= i < 5 ==> ParseDecimal(ts[n + FieldOffset(i)..n + FieldOffset(i) + 2]) == Field(c, i)
  {
    forall i | 0 <= i < 5
      ensures ParseDecimal(NowString(c)[|IntString(c.year)| + FieldOffset(i)..|IntString(c.year)| + FieldOffset(i) + 2]) == Field(c, i)
    {
      TimestampFieldRoundTrip(c, i);
    }
  }

  /** The year in front of the timestamp reads back as the clock's year when
      it is not negative. */
  lemma TimestampYearRoundTrip(c: Clock)
    requires c.year >= 0
    ensures ParseDecimal(NowString(c)[..|IntString(c.year)|]) == c.year
  {
    TimestampShape(c);
    DecimalRoundTrip(c.year);
  }

  /** The location ID: `L` followed by the digits of the timestamp. */
  function LocationId(ts: string): (r: string)
    ensures |r| >= 1 && r[0] == 'L'
    ensures AllDigits(r[1..])
  {
    "L" + KeepDigits(ts)
  }

  function Abs(n: int): nat {
    if n < 0 then -n else n
  }

  lemma KeepDigitsOfYear(year: int)
    ensures KeepDigits(IntString(year)) == Decimal(Abs(year))
  {
    var digits := Decimal(Abs(year));
    if year < 0 {
      KeepDigitsAppend("-", digits);
      assert KeepDigits("-") == "";
    }
    KeepDigitsOfDigits(digits);
  }

  lemma KeepDigitsOfTimestamp(y: string, d: string, t: string)
    requires AllDigits(d) && AllDigits(t)
    ensures KeepDigits(y + d + " " + t) == KeepDigits(y) + d + t
  {
    calc {
      KeepDigits(y + d + " " + t);
      { KeepDigitsAppend(y + d + " ", t); }
      KeepDigits(y + d + " ") + KeepDigits(t);
      { KeepDigitsAppend(y + d, " "); }
      KeepDigits(y + d) + KeepDigits(" ") + KeepDigits(t);
      { KeepDigitsAppend(y, d); }
      KeepDigits(y) + KeepDigits(d) + KeepDigits(" ") + KeepDigits(t);
      { KeepDigitsOfDigits(d); KeepDigitsOfDigits(t); assert KeepDigits(" ") == []; }
      KeepDigits(y) + d + [] + t;
      { assert KeepDigits(y) + d + [] == KeepDigits(y) + d; }
      KeepDigits(y) + d + t;
    }
  }

  /** The location ID of a timestamp is `L`, the digits of the year (a sign
      is dropped) and the ten digits of `MMDDhhmmss`. */
  lemma LocationIdOfClock(c: Clock)
    ensures LocationId(NowString(c)) == "L" + (Decimal(Abs(c.year)) + DatePart(c) + TimePart(c))
    ensures |LocationId(NowString(c))| == |Decimal(Abs(c.year))| + 11
  {
    LocationIdOfParts(IntString(c.year), DatePart(c), TimePart(c));
    KeepDigitsOfYear(c.year);
  }

  lemma LocationIdOfParts(y: string, d: string, t: string)
    requires AllDigits(d) && AllDigits(t)
    ensures LocationId(y + d + " " + t) == "L" + (KeepDigits(y) + d + t)
  {
    KeepDigitsOfTimestamp(y, d, t);
  }

  /** Equal strings with equally long tails have equal heads and tails. */
  lemma SplitEqual(a: string, b: string, a': string, b': string)
    requires a + b == a' + b' && |b| == |b'|
    ensures a == a' && b == b'
  {
    assert a == (a + b)[..|a|];
    assert a' == (a' + b')[..|a'|];
    assert b == (a + b)[|a|..];
    assert b' == (a' + b')[|a'|..];
  }

  lemma TwoDigitsInjective(x: nat, y: nat)
    requires x < 100 && y < 100 && TwoDigits(x) == TwoDigits(y)
    ensures x == y
  {
    SmallTwoDigits(x);
    SmallTwoDigits(y);
  }

  lemma DatePartInjective(c1: Clock, c2: Clock)
    requires c1.Valid() && c2.Valid() && DatePart(c1) == DatePart(c2)
    ensures c1.monthIndex == c2.monthIndex && c1.day == c2.day
  {
    SplitEqual(TwoDigits(c1.monthIndex + 1), TwoDigits(c1.day), TwoDigits(c2.monthIndex + 1), TwoDigits(c2.day));
    TwoDigitsInjective(c1.monthIndex + 1, c2.monthIndex + 1);
    TwoDigitsInjective(c1.day, c2.day);
  }

  lemma TimePartInjective(c1: Clock, c2: Clock)
    requires c1.Valid() && c2.Valid() && TimePart(c1) == TimePart(c2)
    ensures c1.hours == c2.hours && c1.minutes == c2.minutes && c1.seconds == c2.seconds
  {
    var h1, m1, s1 := TwoDigits(c1.hours), TwoDigits(c1.minutes), TwoDigits(c1.seconds);
    var h2, m2, s2 := TwoDigits(c2.hours), TwoDigits(c2.minutes), TwoDigits(c2.seconds);
    SplitEqual(h1 + m1, s1, h2 + m2, s2);
    SplitEqual(h1, m1, h2, m2);
    TwoDigitsInjective(c1.hours, c2.hours);
    TwoDigitsInjective(c1.minutes, c2.minutes);
    TwoDigitsInjective(c1.seconds, c2.seconds);
  }

  /** Two locations created at clock readings that differ in any field, the
      second included, get different IDs (for years from 0 on). */
  lemma LocationIdInjective(c1: Clock, c2: Clock)
    requires c1.Valid() && c2.Valid()
    requires c1.year >= 0 && c2.year >= 0
    requires LocationId(NowString(c1)) == LocationId(NowString(c2))
    ensures c1 == c2
  {
    LocationIdOfClock(c1);
    LocationIdOfClock(c2);
    var y1, y2 := Decimal(c1.year), Decimal(c2.year);
    var d1, d2 := DatePart(c1), DatePart(c2);
    var t1, t2 := TimePart(c1), TimePart(c2);
    SplitEqual("L", y1 + d1 + t1, "L", y2 + d2 + t2);
    SplitEqual(y1 + d1, t1, y2 + d2, t2);
    SplitEqual(y1, d1, y2, d2);
    DecimalInjective(c1.year, c2.year);
    DatePartInjective(c1, c2);
    TimePartInjective(c1, c2);
  }

  /** The shape of a sample ID: `S` and at least three digits. */
  predicate IsSampleId(sid: string) {
    |sid| >= 4 && sid[0] == 'S' && AllDigits(sid[1..])
  }

  /** The sample index a sample ID stands for. */
  function SampleIndex(sid: string): nat
    requires IsSampleId(sid)
  {
    ParseDecimal(sid[1..])
  }

  /** `S${String(index).padStart(3, "0")}`: at least three digits, more when
      the index needs them (1000 gives `S1000`). */
  function SampleId(index: nat): (r: string)
    ensures IsSampleId(r)
    ensures SampleIndex(r) == index
    ensures |r| == 1 + (if |Decimal(index)| < 3 then 3 else |Decimal(index)|)
  {
    var digits := PadStart(Decimal(index), 3, '0');
    PaddedDecimalRoundTrip(index, 3);
    assert ("S" + digits)[1..] == digits;
    "S" + digits
  }

  /** Different sample indexes never share a sample ID. */
  lemma SampleIdInjective(i: nat, j: nat)
    requires SampleId(i) == SampleId(j)
    ensures i == j
  {
  }

  lemma SampleIdExamples()
    ensures SampleId(7) == "S007"
    ensures SampleId(42) == "S042"
    ensures SampleId(1000) == "S1000"
  {
    assert Decimal(4) == "4";
    assert Decimal(42) == "42";
    assert Decimal(1) == "1";
    assert Decimal(10) == "10";
    assert Decimal(100) == "100";
    assert Decimal(1000) == "1000";
  }

  /** A sample ID never contains the `-` that separates the parts of a photo
      filename. */
  lemma SampleIdHasNoDash(sid: string)
    requires IsSampleId(sid)
    ensures '-' !in sid
  {
  }

  /** `String(k).padStart(2, "0")`: the per-sample sequence number, two
      digits, or more when the number needs them, reading back as `k`. */
  function SeqToken(k: nat): (r: string)
    ensures AllDigits(r) && ParseDecimal(r) == k
    ensures |r| == if |Decimal(k)| < 2 then 2 else |Decimal(k)|
  {
    PaddedDecimalRoundTrip(k, 2);
    PadStart(Decimal(k), 2, '0')
  }

  /** `${locationId}-${sampleId}-${String(k).padStart(2, "0")}.jpg` */
  function PhotoFilename(locationId: string, sampleId: string, k: nat): (r: string)
    ensures |r| >= 4 && r[|r| - 4..] == ".jpg"
  {
    locationId + "-" + sampleId + "-" + SeqToken(k) + ".jpg"
  }

  lemma DashAfterHead(a: string, x: string)
    ensures |a + "-" + x| > |a| && (a + "-" + x)[|a|] == '-'
    ensures forall i :: 0 <= i < |a| ==> (a + "-" + x)[i] == a[i]
  {
  }

  /** The text before the first `-` is determined when neither head holds a `-`. */
  lemma SplitAtDash(a: string, b: string, x: string, y: string)
    requires '-' !in a && '-' !in b
    requires a + "-" + x == b + "-" + y
    ensures a == b && x == y
  {
    if |a| < |b| {
      DashAfterHead(a, x);
      DashAfterHead(b, y);
      assert false;
    } else if |b| < |a| {
      DashAfterHead(a, x);
      DashAfterHead(b, y);
      assert false;
    }
    assert a + "-" + x == a + ("-" + x) && b + "-" + y == b + ("-" + y);
    SplitEqual(a, "-" + x, b, "-" + y);
    assert x == ("-" + x)[1..] && y == ("-" + y)[1..];
  }

  lemma FilenameRegroup(loc: string, a: string, p: string)
    ensures loc + "-" + a + "-" + p + ".jpg" == (loc + "-") + (a + "-" + (p + ".jpg"))
  {
  }

  /** Within one location, a photo filename determines its sample ID and its
      sequence number, as long as sample IDs contain no `-`. */
  lemma PhotoFilenameInjective(loc: string, a: string, b: string, k1: nat, k2: nat)
    requires '-' !in a && '-' !in b
    requires PhotoFilename(loc, a, k1) == PhotoFilename(loc, b, k2)
    ensures a == b && k1 == k2
  {
    var p1, p2 := SeqToken(k1), SeqToken(k2);
    FilenameRegroup(loc, a, p1);
    FilenameRegroup(loc, b, p2);
    SplitEqual(loc + "-", a + "-" + (p1 + ".jpg"), loc + "-", b + "-" + (p2 + ".jpg"));
    SplitAtDash(a, b, p1 + ".jpg", p2 + ".jpg");
    SplitEqual(p1, ".jpg", p2, ".jpg");
  }

  /** A photo filename reads back into its parts: the location ID, `-`, the
      sample ID, `-`, the padded sequence number and `.jpg`. */
  lemma PhotoFilenameParts(locationId: string, sampleId: string, k: nat)
    ensures var r := PhotoFilename(locationId, sampleId, k); var t := SeqToken(k);
      var a := |locationId|; var b := a + 1 + |sampleId|;
      && |r| == b + 1 + |t| + 4
      && r[..a] == locationId && r[a] == '-'
      && r[a + 1..b] == sampleId && r[b] == '-'
      && r[b + 1..|r| - 4] == t
      && r[|r| - 4..] == ".jpg"
  {
  }

  /** A sample ID holds no character other than `S` and digits. */
  lemma SampleIdAvoids(index: nat, c: char)
    requires c != 'S' && !IsDigit(c)
    ensures c !in SampleId(index)
  {
    var sid := SampleId(index);
    forall i | 0 <= i < |sid| ensures sid[i] != c {
      if i > 0 {
        assert sid[i] == sid[1..][i - 1];
      }
    }
  }

  /** A photo filename holds no character that its location ID and sample ID
      avoid, other than the digits, `-`, `.`, `j`, `p` and `g` it adds. */
  lemma PhotoFilenameAvoids(locationId: string, sampleId: string, k: nat, c: char)
    requires c !in locationId && c !in sampleId
    requires !IsDigit(c) && c !in "-.jpg"
    ensures c !in PhotoFilename(locationId, sampleId, k)
  {
  }
}

=== FILE: session.dfy ===
/** The in-memory session of app.js (`state`) and the user actions that
    change it: creating a location, snapping a photo, advancing the sample
    and clearing all photos. Every action is a pure function from the old
    state to the new one; a rejected action keeps the old state, as the
    source shows a toast and returns without touching `state`. */
module Session {
  import opened Wrappers
  import opened Text
  import opened Naming
  import opened ActivityLog

  /** A captured JPEG image; the model never looks inside it. */
  type Blob = seq<bv8>

  /** `state.currentLoc` */
  datatype Location = Location(created: string, locationId: string, note: string)

  /** One entry of `state.photos`. The source keeps the strings `sampleId`
      and `filename`; the model keeps what `snapPhoto` builds them from (the
      location ID, the sample index and the per-sample sequence number), and
      `SampleIdOf` and `FilenameOf` give the two strings back. */
  datatype Photo = Photo(locationId: string, sample: nat, number: nat, blob: Blob)

  /** `p.sampleId` */
  function SampleIdOf(p: Photo): string {
    SampleId(p.sample)
  }

  /** `p.filename` */
  function FilenameOf(p: Photo): string {
    PhotoFilename(p.locationId, SampleId(p.sample), p.number)
  }

  /** A GPS reading. Each coordinate is kept as the text JavaScript renders
      for it, or `None` when the reading has no such value. */
  datatype GpsFix = GpsFix(lat: Option<string>, lon: Option<string>, acc: Option<string>)

  /** The directory handle the user granted; the model never looks inside it. */
  datatype Folder = Folder(name: string)

  /** The fields of `state` that the session core reads or writes. */
  datatype State = State(
    project: string,
    rootDir: Option<Folder>,
    currentLoc: Option<Location>,
    sampleIndex: nat,
    photos: seq<Photo>,
    gps: Option<GpsFix>,
    dirty: bool,
    log: seq<LogEntry>)

  /** `state` as the page starts. */
  const Initial: State := State("", None, None, 1, [], None, false, [])

  /** Why an action was refused (the toast the source shows). */
  datatype Error = NoteRequired | ProjectRequired | NoLocation | CameraNotReady | CaptureFailed | NoFolder

  datatype Outcome = Done | Rejected(reason: Error)

  /** The state after an action, and whether the action went through. */
  datatype Step = Step(state: State, outcome: Outcome)

  /** What the camera produced when asked for a frame: the video was not
      ready, `toBlob` gave `null`, or a JPEG blob. */
  datatype Capture = NotReady | NoBlob | Frame(blob: Blob)

  /** The `btnNewLoc` handler, with the inputs already trimmed and the clock
      read by the caller. */
  function NewLocation(s: State, project: string, note: string, clock: Clock): (r: Step)
    ensures r.outcome.Rejected? <==> note == "" || project == ""
    ensures note == "" ==> r.outcome == Rejected(NoteRequired)
    ensures note != "" && project == "" ==> r.outcome == Rejected(ProjectRequired)
    ensures r.outcome.Rejected? ==> r.state == s
    ensures r.outcome.Done? ==>
      && r.state.currentLoc.Some?
      && r.state.currentLoc.value.note == note
      && r.state.currentLoc.value.created == NowString(clock)
      && r.state.currentLoc.value.locationId
           == "L" + (Decimal(Abs(clock.year)) + DatePart(clock) + TimePart(clock))
    ensures r.outcome.Done? ==>
      && r.state.project == project
      && r.state.photos == []
      && r.state.sampleIndex == 1
      && !r.state.dirty
      && r.state.rootDir == s.rootDir && r.state.gps == s.gps && r.state.log == s.log
  {
    if note == "" then Step(s, Rejected(NoteRequired))
    else if project == "" then Step(s, Rejected(ProjectRequired))
    else
      var ts := NowString(clock);
      LocationIdOfClock(clock);
      var loc := Location(ts, LocationId(ts), note);
      Step(s.(project := project, currentLoc := Some(loc), photos := [], sampleIndex := 1, dirty := false), Done)
  }

  /** How many of `photos` belong to sample `index`. */
  function CountSample(photos: seq<Photo>, index: nat): (n: nat)
    ensures n <= |photos|
  {
    if photos == [] then 0
    else CountSample(photos[..|photos| - 1], index) + (if photos[|photos| - 1].sample == index then 1 else 0)
  }

  /** `state.photos.filter((p) => p.sampleId === sid).length`: the count as
      the source takes it, by comparing sample ID strings. */
  function SourceCount(photos: seq<Photo>, sid: string): (n: nat)
    ensures n <= |photos|
  {
    if photos == [] then 0
    else SourceCount(photos[..|photos| - 1], sid) + (if SampleIdOf(photos[|photos| - 1]) == sid then 1 else 0)
  }

  /** Counting by sample ID string and counting by sample index agree,
      because different indexes never share a sample ID. */
  lemma {:induction false} SourceCountIsCountSample(photos: seq<Photo>, index: nat)
    ensures SourceCount(photos, SampleId(index)) == CountSample(photos, index)
    decreases |photos|
  {
    if photos != [] {
      var last := photos[|photos| - 1];
      SourceCountIsCountSample(photos[..|photos| - 1], index);
      if SampleId(last.sample) == SampleId(index) {
        SampleIdInjective(last.sample, index);
      }
    }
  }

  /** The photo `snapPhoto` appends for `blob`: the current sample, and a
      sequence number one past the photos already taken for that sample. */
  function NextPhoto(s: State, blob: Blob): (p: Photo)
    requires s.currentLoc.Some?
    ensures p.locationId == s.currentLoc.value.locationId && p.sample == s.sampleIndex && p.blob == blob
    ensures 1 <= p.number <= |s.photos| + 1
  {
    Photo(s.currentLoc.value.locationId, s.sampleIndex, CountSample(s.photos, s.sampleIndex) + 1, blob)
  }

  /** `snapPhoto`: refused without a location (checked first), then when the
      camera is not ready or no blob came back; otherwise one photo is
      appended and the session becomes dirty. */
  function Snap(s: State, capture: Capture): (r: Step)
    ensures s.currentLoc.None? ==> r.outcome == Rejected(NoLocation)
    ensures s.currentLoc.Some? && capture.NotReady? ==> r.outcome == Rejected(CameraNotReady)
    ensures s.currentLoc.Some? && capture.NoBlob? ==> r.outcome == Rejected(CaptureFailed)
    ensures r.outcome.Done? <==> s.currentLoc.Some? && capture.Frame?
    ensures r.outcome.Rejected? ==> r.state == s
    ensures r.outcome.Done? ==>
      && |r.state.photos| == |s.photos| + 1
      && r.state.photos[..|s.photos|] == s.photos
      && r.state.photos[|s.photos|] == NextPhoto(s, capture.blob)
      && r.state.dirty
      && r.state.(photos := s.photos, dirty := s.dirty) == s
  {
    if s.currentLoc.None? then Step(s, Rejected(NoLocation))
    else
      match capture
      case NotReady => Step(s, Rejected(CameraNotReady))
      case NoBlob => Step(s, Rejected(CaptureFailed))
      case Frame(blob) =>
        var photos := s.photos + [NextPhoto(s, blob)];
        assert photos[..|s.photos|] == s.photos;
        Step(s.(photos := photos, dirty := true), Done)
  }

  /** The photo `snapPhoto` appends is the one the source builds: its
      sample is the current sample index, so its `sampleId` is
      `SampleId(sampleIndex)`, and its sequence number is one more than the
      number of photos already carrying that sample ID string, so its
      `filename` is `PhotoFilename(locationId, sampleId, count + 1)`. */
  lemma SnapNamesAsSource(s: State, blob: Blob)
    requires s.currentLoc.Some?
    ensures Snap(s, Frame(blob)).state.photos[|s.photos|]
      == Photo(s.currentLoc.value.locationId, s.sampleIndex, SourceCount(s.photos, SampleId(s.sampleIndex)) + 1, blob)
  {
    SourceCountIsCountSample(s.photos, s.sampleIndex);
  }

  /** The `btnNextSample` handler: only the sample index moves on. */
  function NextSample(s: State): (r: State)
    ensures r.sampleIndex == s.sampleIndex + 1
    ensures r.(sampleIndex := s.sampleIndex) == s
  {
    s.(sampleIndex := s.sampleIndex + 1)
  }

  /** The `btnClearAll` handler, given the answer to its confirmation
      dialog: all photos go, the session is dirty, the location and the
      sample index stay. */
  function ClearAll(s: State, confirmed: bool): (r: State)
    ensures !confirmed ==> r == s
    ensures confirmed ==> r.photos == [] && r.dirty
    ensures r.currentLoc == s.currentLoc && r.sampleIndex == s.sampleIndex
    ensures r.(photos := s.photos, dirty := s.dirty) == s
  {
    if confirmed then s.(photos := [], dirty := true) else s
  }

  /** Snaps one frame per blob, in order, without advancing the sample. */
  function SnapAll(s: State, blobs: seq<Blob>): State
    decreases |blobs|
  {
    if blobs == [] then s else SnapAll(Snap(s, Frame(blobs[0])).state, blobs[1..])
  }

  lemma CountSampleAppend(photos: seq<Photo>, p: Photo, index: nat)
    ensures CountSample(photos + [p], index) == CountSample(photos, index) + (if p.sample == index then 1 else 0)
  {
    assert (photos + [p])[..|photos|] == photos;
  }

  /** The photos N snaps of sample `index` produce at location `locId`, the
      first numbered `first`. */
  function Shots(locId: string, index: nat, first: nat, blobs: seq<Blob>): (r: seq<Photo>)
    ensures |r| == |blobs|
    decreases |blobs|
  {
    if blobs == [] then []
    else [Photo(locId, index, first, blobs[0])] + Shots(locId, index, first + 1, blobs[1..])
  }

  /** Blob j of the run becomes a photo with sequence number `first + j`. */
  lemma {:induction false} ShotsAt(locId: string, index: nat, first: nat, blobs: seq<Blob>, j: nat)
    requires j < |blobs|
    ensures Shots(locId, index, first, blobs)[j] == Photo(locId, index, first + j, blobs[j])
    decreases j
  {
    if j > 0 {
      ShotsAt(locId, index, first + 1, blobs[1..], j - 1);
      assert Shots(locId, index, first, blobs)[j] == Shots(locId, index, first + 1, blobs[1..])[j - 1];
      assert blobs[1..][j - 1] == blobs[j];
    }
  }

  /** A snap with a frame at a location appends the next photo. */
  lemma SnapFrame(s: State, blob: Blob)
    requires s.currentLoc.Some?
    ensures Snap(s, Frame(blob)).state == s.(photos := s.photos + [NextPhoto(s, blob)], dirty := true)
  {
  }

  /** Snapping N frames in a row appends N photos of the current sample, in
      capture order, numbered on from the photos that sample already has. */
  lemma {:induction false} SnapAllNumbersInOrder(s: State, blobs: seq<Blob>)
    requires s.currentLoc.Some?
    ensures SnapAll(s, blobs).photos
         == s.photos + Shots(s.currentLoc.value.locationId, s.sampleIndex, CountSample(s.photos, s.sampleIndex) + 1, blobs)
    decreases |blobs|
  {
    var locId := s.currentLoc.value.locationId;
    var first := CountSample(s.photos, s.sampleIndex) + 1;
    if blobs == [] {
      assert s.photos + Shots(locId, s.sampleIndex, first, blobs) == s.photos;
    } else {
      var p := NextPhoto(s, blobs[0]);
      var next := s.(photos := s.photos + [p], dirty := true);
      SnapFrame(s, blobs[0]);
      CountSampleAppend(s.photos, p, s.sampleIndex);
      SnapAllNumbersInOrder(next, blobs[1..]);
      var rest := Shots(locId, s.sampleIndex, first + 1, blobs[1..]);
      AppendAssoc(s.photos, [p], rest);
    }
  }

  /** Snapping changes only the photos and the dirty flag. */
  lemma {:induction false} SnapAllKeepsTheRest(s: State, blobs: seq<Blob>)
    requires s.currentLoc.Some?
    ensures SnapAll(s, blobs).(photos := s.photos, dirty := s.dirty) == s
    decreases |blobs|
  {
    if blobs != [] {
      SnapFrame(s, blobs[0]);
      SnapAllKeepsTheRest(Snap(s, Frame(blobs[0])).state, blobs[1..]);
    }
  }

  /** Right after a new location, N snaps give the sequence numbers 1..N:
      filenames `<loc>-<sample>-01.jpg`, `-02.jpg`, ... in capture order. */
  lemma FreshLocationNumbersFromOne(s: State, blobs: seq<Blob>)
    requires s.currentLoc.Some? && s.photos == []
    ensures var r := SnapAll(s, blobs);
      && |r.photos| == |blobs|
      && forall j :: 0 <= j < |blobs| ==>
           FilenameOf(r.photos[j]) == PhotoFilename(s.currentLoc.value.locationId, SampleId(s.sampleIndex), j + 1)
  {
    var locId := s.currentLoc.value.locationId;
    SnapAllNumbersInOrder(s, blobs);
    var r := SnapAll(s, blobs);
    assert r.photos == Shots(locId, s.sampleIndex, 1, blobs);
    forall j | 0 <= j < |blobs|
      ensures FilenameOf(r.photos[j]) == PhotoFilename(locId, SampleId(s.sampleIndex), j + 1)
    {
      ShotsAt(locId, s.sampleIndex, 1, blobs, j);
    }
  }

  /** What the source keeps true of a photo at position `i`: it was taken
      at the current location, for a sample that existed then, and numbered
      one more than the earlier photos of the same sample. */
  predicate PhotoInPlace(loc: Location, photos: seq<Photo>, sampleIndex: nat, i: int)
    requires 0 <= i < |photos|
  {
    && photos[i].locationId == loc.locationId
    && 1 <= photos[i].sample <= sampleIndex
    && photos[i].number == CountSample(photos[..i], photos[i].sample) + 1
  }

  /** The session invariant. */
  predicate WellFormed(s: State) {
    && s.sampleIndex >= 1
    && |s.log| <= MaxEntries
    && match s.currentLoc
       case None => s.photos == []
       case Some(loc) => forall i :: 0 <= i < |s.photos| ==> PhotoInPlace(loc, s.photos, s.sampleIndex, i)
  }

  lemma InitialWellFormed()
    ensures WellFormed(Initial)
  {
  }

  lemma NewLocationPreservesWellFormed(s: State, project: string, note: string, clock: Clock)
    requires WellFormed(s)
    ensures WellFormed(NewLocation(s, project, note, clock).state)
  {
  }

  lemma SnapPreservesWellFormed(s: State, capture: Capture)
    requires WellFormed(s)
    ensures WellFormed(Snap(s, capture).state)
  {
    if s.currentLoc.Some? && capture.Frame? {
      var loc := s.currentLoc.value;
      var photos := s.photos + [NextPhoto(s, capture.blob)];
      assert Snap(s, capture).state == s.(photos := photos, dirty := true);
      forall i | 0 <= i < |photos| ensures PhotoInPlace(loc, photos, s.sampleIndex, i) {
        if i < |s.photos| {
          assert PhotoInPlace(loc, s.photos, s.sampleIndex, i);
          assert photos[..i] == s.photos[..i];
        } else {
          assert photos[..i] == s.photos;
        }
      }
    }
  }

  lemma NextSamplePreservesWellFormed(s: State)
    requires WellFormed(s)
    ensures WellFormed(NextSample(s))
  {
    var r := NextSample(s);
    if s.currentLoc.Some? {
      forall i | 0 <= i < |r.photos| ensures PhotoInPlace(s.currentLoc.value, r.photos, r.sampleIndex, i) {
        assert PhotoInPlace(s.currentLoc.value, s.photos, s.sampleIndex, i);
      }
    }
  }

  lemma ClearAllPreservesWellFormed(s: State, confirmed: bool)
    requires WellFormed(s)
    ensures WellFormed(ClearAll(s, confirmed))
  {
  }

  lemma {:induction false} CountSampleNone(photos: seq<Photo>, index: nat)
    requires forall i :: 0 <= i < |photos| ==> photos[i].sample != index
    ensures CountSample(photos, index) == 0
    decreases |photos|
  {
    if photos != [] {
      CountSampleNone(photos[..|photos| - 1], index);
    }
  }

  /** After advancing the sample, the next photo starts again at sequence
      number 1: no earlier photo belongs to the new sample. */
  lemma NextSampleStartsAtOne(s: State)
    requires WellFormed(s)
    ensures CountSample(NextSample(s).photos, s.sampleIndex + 1) == 0
  {
    forall i | 0 <= i < |s.photos| ensures s.photos[i].sample != s.sampleIndex + 1 {
      assert PhotoInPlace(s.currentLoc.value, s.photos, s.sampleIndex, i);
    }
    CountSampleNone(s.photos, s.sampleIndex + 1);
  }

  lemma {:induction false} CountSampleGrows(photos: seq<Photo>, i: nat, j: nat)
    requires i < j <= |photos|
    ensures CountSample(photos[..j], photos[i].sample) >= CountSample(photos[..i], photos[i].sample) + 1
    decreases j
  {
    var index := photos[i].sample;
    if j == i + 1 {
      assert photos[..j] == photos[..i] + [photos[i]];
      CountSampleAppend(photos[..i], photos[i], index);
    } else {
      CountSampleGrows(photos, i, j - 1);
      assert photos[..j] == photos[..j - 1] + [photos[j - 1]];
      CountSampleAppend(photos[..j - 1], photos[j - 1], index);
    }
  }

  /** Two photos in place at different positions have different filenames:
      either their samples differ, or the later one counts the earlier. */
  lemma InPlaceFilenamesDiffer(loc: Location, photos: seq<Photo>, index: nat, i: nat, j: nat)
    requires i < j < |photos|
    requires PhotoInPlace(loc, photos, index, i) && PhotoInPlace(loc, photos, index, j)
    ensures FilenameOf(photos[i]) != FilenameOf(photos[j])
  {
    var a, b := photos[i].sample, photos[j].sample;
    if FilenameOf(photos[i]) == FilenameOf(photos[j]) {
      SampleIdHasNoDash(SampleId(a));
      SampleIdHasNoDash(SampleId(b));
      PhotoFilenameInjective(loc.locationId, SampleId(a), SampleId(b), photos[i].number, photos[j].number);
      SampleIdInjective(a, b);
      CountSampleGrows(photos, i, j);
      assert false;
    }
  }

  /** Within a location no two photos share a filename, so saving never
      writes one photo over another. */
  lemma FilenamesUnique(s: State)
    requires WellFormed(s)
    ensures forall i, j :: 0 <= i < j < |s.photos| ==> FilenameOf(s.photos[i]) != FilenameOf(s.photos[j])
  {
    forall i, j | 0 <= i < j < |s.photos|
      ensures FilenameOf(s.photos[i]) != FilenameOf(s.photos[j])
    {
      InPlaceFilenamesDiffer(s.currentLoc.value, s.photos, s.sampleIndex, i, j);
    }
  }

  /** The photo `snapPhoto` takes next gets a filename no photo of the
      session has yet. */
  lemma NextPhotoFreshName(s: State, blob: Blob)
    requires WellFormed(s) && s.currentLoc.Some?
    ensures forall i :: 0 <= i < |s.photos| ==> FilenameOf(s.photos[i]) != FilenameOf(NextPhoto(s, blob))
  {
    var t := Snap(s, Frame(blob)).state;
    SnapPreservesWellFormed(s, Frame(blob));
    FilenamesUnique(t);
    assert t.photos == s.photos + [NextPhoto(s, blob)];
    forall i | 0 <= i < |s.photos|
      ensures FilenameOf(s.photos[i]) != FilenameOf(NextPhoto(s, blob))
    {
      assert t.photos[i] == s.photos[i] && t.photos[|s.photos|] == NextPhoto(s, blob);
    }
  }
}

=== FILE: storage.dfy ===
/** The `btnCloseSave` handler and `saveLocation`: the guards, then the
    ordered list of effects a save performs (open the location folder,
    write every photo and log it, write the sheet, write the JSON record,
    mark the session saved). The effects that touch `state` are applied by
    `Run`; the folder and the files are left to the caller. */
module Storage {
  import opened Naming
  import opened ActivityLog
  import opened Session
  import opened Export

  /** What a written file holds. */
  datatype Content = Image(blob: Blob) | CsvText(text: string) | JsonText(record: JsonRecord)

  /** One step of `saveLocation`, in the order the source awaits them. */
  datatype Effect =
    | OpenFolder(name: string)
    | WriteFile(name: string, content: Content)
    | PushEntry(entry: LogEntry)
    | MarkSaved

  /** `${loc.created}_${loc.locationId}_${safeName(loc.note)}`: as long as
      the three parts and the two `_` together, and its last `|note|`
      characters are all name characters whatever the note holds. */
  function FolderName(loc: Location): (f: string)
    ensures |f| == |loc.created| + |loc.locationId| + |loc.note| + 2
    ensures AllNameChars(f[|f| - |loc.note|..])
  {
    var f := loc.created + "_" + loc.locationId + "_" + SafeName(loc.note);
    assert f[|f| - |loc.note|..] == SafeName(loc.note);
    f
  }

  /** The folder name is the timestamp, `_`, the location ID, `_`, and then
      the note with every unsafe character replaced. */
  lemma FolderNameEndsInSafeNote(loc: Location)
    ensures var f := FolderName(loc); var n := |loc.created| + |loc.locationId| + 2;
      && |f| == n + |loc.note|
      && f[..n] == loc.created + "_" + loc.locationId + "_"
      && f[n..] == SafeName(loc.note)
  {
    var f := FolderName(loc);
    var n := |loc.created| + |loc.locationId| + 2;
    assert f[n..] == SafeName(loc.note);
  }

  /** Notes that differ only in characters `safeName` replaces share a
      folder name. */
  lemma FolderNameIgnoresUnsafeChars(loc: Location, note: string)
    requires SafeName(note) == SafeName(loc.note)
    ensures FolderName(loc.(note := note)) == FolderName(loc)
  {
  }

  /** The log entry `pushLog` records for a written photo. */
  function EntryOf(project: string, p: Photo): LogEntry {
    LogEntry(project, SampleIdOf(p), FilenameOf(p))
  }

  /** A photo as the save loop handles it: the file name, the image and
      the log entry recorded after writing it. */
  datatype PhotoFile = PhotoFile(name: string, blob: Blob, entry: LogEntry)

  /** Everything a save needs, computed before the first effect: the
      folder name, the photo files in order, and the sheet and the record
      with their file names. */
  datatype SavePlan = SavePlan(
    folder: string,
    photos: seq<PhotoFile>,
    csvName: string,
    csv: string,
    jsonName: string,
    json: JsonRecord)

  function PhotoFiles(project: string, photos: seq<Photo>): (r: seq<PhotoFile>)
    ensures |r| == |photos|
  {
    seq(|photos|, i requires 0 <= i < |photos| =>
      PhotoFile(FilenameOf(photos[i]), photos[i].blob, EntryOf(project, photos[i])))
  }

  function PlanOf(s: State): SavePlan
    requires s.currentLoc.Some?
  {
    var loc := s.currentLoc.value;
    SavePlan(FolderName(loc), PhotoFiles(s.project, s.photos),
      loc.locationId + ".csv", MakeCsv(s), loc.locationId + ".json", MakeJson(s))
  }

  /** The photo loop: write the image, then log it, photo after photo. */
  function PhotoEffects(files: seq<PhotoFile>): (r: seq<Effect>)
    ensures |r| == 2 * |files|
    decreases |files|
  {
    if files == [] then []
    else [WriteFile(files[0].name, Image(files[0].blob)), PushEntry(files[0].entry)] + PhotoEffects(files[1..])
  }

  /** The effects of a plan, in the order `saveLocation` awaits them. */
  function Effects(plan: SavePlan): (r: seq<Effect>)
    ensures |r| == 2 * |plan.photos| + 4
  {
    [OpenFolder(plan.folder)]
    + PhotoEffects(plan.photos)
    + [WriteFile(plan.csvName, CsvText(plan.csv)), WriteFile(plan.jsonName, JsonText(plan.json)), MarkSaved]
  }

  /** A plan opens its folder first and marks the session saved last. */
  lemma EffectsEnds(plan: SavePlan)
    ensures Effects(plan)[0] == OpenFolder(plan.folder)
    ensures Effects(plan)[|Effects(plan)| - 1] == MarkSaved
  {
  }

  /** Everything `saveLocation` does, in order: it opens the location's
      folder first, performs two effects per photo, and marks the session
      saved last. */
  function SaveEffects(s: State): (r: seq<Effect>)
    requires s.currentLoc.Some?
    ensures |r| == 2 * |s.photos| + 4
    ensures r[0] == OpenFolder(FolderName(s.currentLoc.value)) && r[|r| - 1] == MarkSaved
  {
    EffectsEnds(PlanOf(s));
    Effects(PlanOf(s))
  }

  /** What one effect does to `state`: only logging and the final
      `updateDirty(false)` touch it. */
  function Apply(s: State, e: Effect): State {
    match e
    case PushEntry(entry) => s.(log := PushLog(s.log, entry))
    case MarkSaved => s.(dirty := false)
    case _ => s
  }

  function Run(s: State, es: seq<Effect>): State
    decreases |es|
  {
    if es == [] then s else Run(Apply(s, es[0]), es[1..])
  }

  lemma RunCons(s: State, e: Effect, es: seq<Effect>)
    ensures Run(s, [e] + es) == Run(Apply(s, e), es)
  {
    assert ([e] + es)[1..] == es;
  }

  lemma RunOne(s: State, e: Effect)
    ensures Run(s, [e]) == Apply(s, e)
  {
    assert [e][1..] == [];
  }

  lemma {:induction false} RunAppend(s: State, a: seq<Effect>, b: seq<Effect>)
    ensures Run(s, a + b) == Run(Run(s, a), b)
    decreases |a|
  {
    if a == [] {
      assert a + b == b;
    } else {
      assert (a + b)[0] == a[0] && (a + b)[1..] == a[1..] + b;
      RunAppend(Apply(s, a[0]), a[1..], b);
    }
  }

  /** The entries the photo files log, in order. */
  function Logged(files: seq<PhotoFile>): (es: seq<LogEntry>)
    ensures |es| == |files|
  {
    seq(|files|, i requires 0 <= i < |files| => files[i].entry)
  }

  /** One entry per photo, in order. */
  function Entries(project: string, photos: seq<Photo>): seq<LogEntry> {
    Logged(PhotoFiles(project, photos))
  }

  /** Entry i is the project, the sample ID and the filename of photo i. */
  lemma EntriesAre(project: string, photos: seq<Photo>)
    ensures |Entries(project, photos)| == |photos|
    ensures forall i :: 0 <= i < |photos| ==>
      Entries(project, photos)[i] == LogEntry(project, SampleIdOf(photos[i]), FilenameOf(photos[i]))
  {
  }

  lemma LoggedTail(files: seq<PhotoFile>)
    requires files != []
    ensures Logged(files) == [files[0].entry] + Logged(files[1..])
  {
  }

  /** The photo loop pushes one log entry per photo, in order, and changes
      nothing else. */
  lemma {:induction false} PhotoEffectsRun(s: State, files: seq<PhotoFile>)
    ensures Run(s, PhotoEffects(files)) == s.(log := PushAll(s.log, Logged(files)))
    decreases |files|
  {
    if files != [] {
      var e := files[0].entry;
      var t := s.(log := PushLog(s.log, e));
      var head := [WriteFile(files[0].name, Image(files[0].blob)), PushEntry(e)];
      RunAppend(s, head, PhotoEffects(files[1..]));
      assert Run(s, head) == t by {
        assert head == [head[0]] + [PushEntry(e)];
        RunCons(s, head[0], [PushEntry(e)]);
        RunOne(s, PushEntry(e));
      }
      PhotoEffectsRun(t, files[1..]);
      LoggedTail(files);
    }
  }

  /** Running a plan logs every photo and then marks the session saved;
      nothing else in `state` changes. */
  lemma PlanOutcome(s: State, plan: SavePlan)
    ensures Run(s, Effects(plan)) == s.(log := PushAll(s.log, Logged(plan.photos)), dirty := false)
  {
    var open := [OpenFolder(plan.folder)];
    var photos := PhotoEffects(plan.photos);
    var tail := [WriteFile(plan.csvName, CsvText(plan.csv)), WriteFile(plan.jsonName, JsonText(plan.json)), MarkSaved];
    RunAppend(s, open + photos, tail);
    RunAppend(s, open, photos);
    PhotoEffectsRun(s, plan.photos);
    RunOne(s, open[0]);
    var u := s.(log := PushAll(s.log, Logged(plan.photos)));
    assert Run(u, tail) == u.(dirty := false) by {
      assert tail == [tail[0]] + ([tail[1]] + [MarkSaved]);
      RunCons(u, tail[0], [tail[1]] + [MarkSaved]);
      RunCons(u, tail[1], [MarkSaved]);
      RunOne(u, MarkSaved);
    }
  }

  /** A completed save logs every photo and marks the session saved;
      nothing else in `state` changes. */
  lemma SaveOutcome(s: State)
    requires s.currentLoc.Some?
    ensures Run(s, SaveEffects(s)) == s.(log := PushAll(s.log, Entries(s.project, s.photos)), dirty := false)
  {
    PlanOutcome(s, PlanOf(s));
  }

  /** What the `btnCloseSave` handler did: the step it took and the
      effects it performed, in order. */
  datatype SaveResult = SaveResult(step: Step, effects: seq<Effect>)

  /** The `btnCloseSave` handler: refused without a location (checked
      first), then without a save folder, and a refused save performs no
      effect at all; otherwise the whole save runs. */
  function CloseSave(s: State): (r: SaveResult)
    ensures r.step.outcome == Rejected(NoLocation) <==> s.currentLoc.None?
    ensures r.step.outcome == Rejected(NoFolder) <==> s.currentLoc.Some? && s.rootDir.None?
    ensures r.step.outcome.Done? <==> s.currentLoc.Some? && s.rootDir.Some?
    ensures r.step.outcome.Rejected? ==> r.step.state == s && r.effects == []
    ensures r.step.outcome.Done? ==> r.effects == SaveEffects(s) && r.step.state == Run(s, r.effects)
    ensures r.step.outcome.Done? ==>
      r.step.state == s.(log := PushAll(s.log, Entries(s.project, s.photos)), dirty := false)
  {
    if s.currentLoc.None? then SaveResult(Step(s, Rejected(NoLocation)), [])
    else if s.rootDir.None? then SaveResult(Step(s, Rejected(NoFolder)), [])
    else
      SaveOutcome(s);
      SaveResult(Step(Run(s, SaveEffects(s)), Done), SaveEffects(s))
  }

  lemma {:induction false} MarkNotInPhotoEffects(files: seq<PhotoFile>)
    ensures MarkSaved !in PhotoEffects(files)
    decreases |files|
  {
    if files != [] {
      MarkNotInPhotoEffects(files[1..]);
    }
  }

  /** Before `MarkSaved`, effects touch only the log. */
  lemma {:induction false} RunWithoutMark(s: State, es: seq<Effect>)
    requires MarkSaved !in es
    ensures Run(s, es) == s.(log := Run(s, es).log)
    decreases |es|
  {
    if es != [] {
      assert es[0] != MarkSaved && MarkSaved !in es[1..];
      RunWithoutMark(Apply(s, es[0]), es[1..]);
    }
  }

  /** Only the last effect of a plan marks the session saved, so every
      proper prefix of the effects changes at most the log. */
  lemma PlanPrefixOnlyLogs(s: State, plan: SavePlan, k: nat)
    requires k < |Effects(plan)|
    ensures Run(s, Effects(plan)[..k]) == s.(log := Run(s, Effects(plan)[..k]).log)
    ensures Effects(plan)[|Effects(plan)| - 1] == MarkSaved
  {
    var es := Effects(plan);
    var body := [OpenFolder(plan.folder)] + PhotoEffects(plan.photos)
      + [WriteFile(plan.csvName, CsvText(plan.csv)), WriteFile(plan.jsonName, JsonText(plan.json))];
    MarkNotInPhotoEffects(plan.photos);
    assert es == body + [MarkSaved];
    assert MarkSaved !in body;
    assert es[..k] == body[..k];
    assert MarkSaved !in es[..k];
    RunWithoutMark(s, es[..k]);
  }

  /** A save that stops part way (a write throws and the handler shows
      "Save failed.") leaves the session dirty: before the last effect only
      the log has changed, and the last effect, which marks the session
      saved, comes after every file has been written. */
  lemma InterruptedSaveStaysDirty(s: State, k: nat)
    requires s.currentLoc.Some?
    requires k < |SaveEffects(s)|
    ensures Run(s, SaveEffects(s)[..k]) == s.(log := Run(s, SaveEffects(s)[..k]).log)
    ensures SaveEffects(s)[|SaveEffects(s)| - 1] == MarkSaved
  {
    PlanPrefixOnlyLogs(s, PlanOf(s), k);
  }

  /** In the photo loop, photo j is written by effect 2j and logged by the
      effect right after it. */
  lemma {:induction false} PhotoEffectsAt(files: seq<PhotoFile>, j: nat)
    requires j < |files|
    ensures PhotoEffects(files)[2 * j] == WriteFile(files[j].name, Image(files[j].blob))
    ensures PhotoEffects(files)[2 * j + 1] == PushEntry(files[j].entry)
    decreases j
  {
    var head := [WriteFile(files[0].name, Image(files[0].blob)), PushEntry(files[0].entry)];
    assert PhotoEffects(files) == head + PhotoEffects(files[1..]);
    if j > 0 {
      PhotoEffectsAt(files[1..], j - 1);
      assert files[1..][j - 1] == files[j];
    }
  }

  /** The first 2j effects of the photo loop are the loop over the first j
      photos. */
  lemma {:induction false} PhotoEffectsPrefix(files: seq<PhotoFile>, j: nat)
    requires j <= |files|
    ensures PhotoEffects(files)[..2 * j] == PhotoEffects(files[..j])
    decreases j
  {
    if j > 0 {
      var head := [WriteFile(files[0].name, Image(files[0].blob)), PushEntry(files[0].entry)];
      assert PhotoEffects(files) == head + PhotoEffects(files[1..]);
      PhotoEffectsPrefix(files[1..], j - 1);
      assert files[..j][1..] == files[1..][..j - 1];
      assert PhotoEffects(files[..j]) == head + PhotoEffects(files[..j][1..]);
      assert PhotoEffects(files)[..2 * j] == head + PhotoEffects(files[1..])[..2 * (j - 1)];
    } else {
      assert files[..j] == [];
    }
  }

  /** After the folder and the first j photos (1 + 2j effects), the first j
      photos have been written, in order, and logged, in order; nothing else
      in `state` has changed. */
  lemma PlanAfterPhotos(s: State, plan: SavePlan, j: nat)
    requires j <= |plan.photos|
    ensures var es := Effects(plan)[..1 + 2 * j];
      && Run(s, es) == s.(log := PushAll(s.log, Logged(plan.photos[..j])))
      && Writes(es) == FileWrites(plan.photos[..j])
  {
    var open := [OpenFolder(plan.folder)];
    var done := PhotoEffects(plan.photos[..j]);
    var es := Effects(plan)[..1 + 2 * j];
    PhotoEffectsPrefix(plan.photos, j);
    assert es == open + done;
    RunAppend(s, open, done);
    RunOne(s, open[0]);
    PhotoEffectsRun(s, plan.photos[..j]);
    WritesAppend(open, done);
    WritesOne(open[0]);
    PhotoEffectsWrites(plan.photos[..j]);
  }

  /** In a plan, photo j is written by effect 1 + 2j and logged by the
      next effect. */
  lemma PlanPhotoEffects(plan: SavePlan, j: nat)
    requires j < |plan.photos|
    ensures Effects(plan)[1 + 2 * j] == WriteFile(plan.photos[j].name, Image(plan.photos[j].blob))
    ensures Effects(plan)[2 + 2 * j] == PushEntry(plan.photos[j].entry)
  {
    PhotoEffectsAt(plan.photos, j);
  }

  /** The photo loop of a save: photo j is written under its filename by
      effect 1 + 2j and logged by the next effect. */
  lemma SavePhotoEffects(s: State, j: nat)
    requires s.currentLoc.Some? && j < |s.photos|
    ensures SaveEffects(s)[1 + 2 * j] == WriteFile(FilenameOf(s.photos[j]), Image(s.photos[j].blob))
    ensures SaveEffects(s)[2 + 2 * j] == PushEntry(EntryOf(s.project, s.photos[j]))
  {
    var plan := PlanOf(s);
    assert SaveEffects(s) == Effects(plan);
    assert plan.photos[j] == PhotoFile(FilenameOf(s.photos[j]), s.photos[j].blob, EntryOf(s.project, s.photos[j]));
    PlanPhotoEffects(plan, j);
  }

  /** After 1 + 2j effects of a save, exactly the first j photos have been
      written and logged, in capture order. */
  lemma SaveAfterPhotos(s: State, j: nat)
    requires s.currentLoc.Some? && j <= |s.photos|
    ensures Run(s, SaveEffects(s)[..1 + 2 * j]) == s.(log := PushAll(s.log, Entries(s.project, s.photos[..j])))
    ensures Writes(SaveEffects(s)[..1 + 2 * j]) == FileWrites(PhotoFiles(s.project, s.photos[..j]))
  {
    var plan := PlanOf(s);
    var files := PhotoFiles(s.project, s.photos[..j]);
    assert SaveEffects(s) == Effects(plan);
    assert plan.photos[..j] == files by {
      PhotoFilesPrefix(s.project, s.photos, j);
    }
    PlanAfterPhotos(s, plan, j);
  }

  lemma PhotoFilesPrefix(project: string, photos: seq<Photo>, j: nat)
    requires j <= |photos|
    ensures PhotoFiles(project, photos)[..j] == PhotoFiles(project, photos[..j])
  {
  }

  /** The files a list of effects writes, in order. */
  function Writes(es: seq<Effect>): (w: seq<(string, Content)>)
    ensures |w| <= |es|
    decreases |es|
  {
    if es == [] then []
    else (if es[0].WriteFile? then [(es[0].name, es[0].content)] else []) + Writes(es[1..])
  }

  lemma WritesCons(e: Effect, es: seq<Effect>)
    ensures Writes([e] + es) == (if e.WriteFile? then [(e.name, e.content)] else []) + Writes(es)
  {
    assert ([e] + es)[1..] == es;
  }

  lemma WritesOne(e: Effect)
    ensures Writes([e]) == if e.WriteFile? then [(e.name, e.content)] else []
  {
    assert [e][1..] == [];
  }

  lemma {:induction false} WritesAppend(a: seq<Effect>, b: seq<Effect>)
    ensures Writes(a + b) == Writes(a) + Writes(b)
    decreases |a|
  {
    if a == [] {
      assert a + b == b;
    } else {
      assert (a + b)[0] == a[0] && (a + b)[1..] == a[1..] + b;
      WritesAppend(a[1..], b);
    }
  }

  /** Every photo file's image under its name, in order. */
  function FileWrites(files: seq<PhotoFile>): (w: seq<(string, Content)>)
    ensures |w| == |files|
  {
    seq(|files|, i requires 0 <= i < |files| => (files[i].name, Image(files[i].blob)))
  }

  lemma FileWritesTail(files: seq<PhotoFile>)
    requires files != []
    ensures FileWrites(files) == [(files[0].name, Image(files[0].blob))] + FileWrites(files[1..])
  {
  }

  lemma {:induction false} PhotoEffectsWrites(files: seq<PhotoFile>)
    ensures Writes(PhotoEffects(files)) == FileWrites(files)
    decreases |files|
  {
    if files != [] {
      var w := (files[0].name, Image(files[0].blob));
      var head := [WriteFile(w.0, w.1), PushEntry(files[0].entry)];
      WritesAppend(head, PhotoEffects(files[1..]));
      assert Writes(head) == [w] by {
        assert head == [head[0]] + [head[1]];
        WritesCons(head[0], [head[1]]);
        WritesOne(head[1]);
      }
      PhotoEffectsWrites(files[1..]);
      FileWritesTail(files);
    }
  }

  /** A plan writes its photo files in order, then the sheet, then the
      record, and nothing else. */
  lemma PlanWrites(plan: SavePlan)
    ensures Writes(Effects(plan)) == FileWrites(plan.photos)
      + [(plan.csvName, CsvText(plan.csv)), (plan.jsonName, JsonText(plan.json))]
  {
    var open := [OpenFolder(plan.folder)];
    var photos := PhotoEffects(plan.photos);
    var tail := [WriteFile(plan.csvName, CsvText(plan.csv)), WriteFile(plan.jsonName, JsonText(plan.json)), MarkSaved];
    WritesAppend(open + photos, tail);
    WritesAppend(open, photos);
    PhotoEffectsWrites(plan.photos);
    WritesOne(open[0]);
    assert Writes(tail) == [(plan.csvName, CsvText(plan.csv)), (plan.jsonName, JsonText(plan.json))] by {
      assert tail == [tail[0]] + ([tail[1]] + [MarkSaved]);
      WritesCons(tail[0], [tail[1]] + [MarkSaved]);
      WritesCons(tail[1], [MarkSaved]);
      WritesOne(MarkSaved);
    }
  }

  /** A save writes every photo's image under its filename, in order, then
      `<locationId>.csv` holding the sheet, then `<locationId>.json` holding
      the record, and nothing else. */
  lemma SaveWrites(s: State)
    requires s.currentLoc.Some?
    ensures var w := Writes(SaveEffects(s)); var n := |s.photos|;
      && |w| == n + 2
      && (forall i :: 0 <= i < n ==> w[i] == (FilenameOf(s.photos[i]), Image(s.photos[i].blob)))
      && w[n] == (s.currentLoc.value.locationId + ".csv", CsvText(MakeCsv(s)))
      && w[n + 1] == (s.currentLoc.value.locationId + ".json", JsonText(MakeJson(s)))
  {
    PlanWrites(PlanOf(s));
  }

  /** The record's photo list names exactly the image files the save
      writes, in the order it writes them. */
  lemma RecordNamesWrittenFiles(s: State)
    requires s.currentLoc.Some?
    ensures var w := Writes(SaveEffects(s));
      |w| == |MakeJson(s).photos| + 2
      && forall i :: 0 <= i < |MakeJson(s).photos| ==> w[i].0 == MakeJson(s).photos[i] && w[i].1.Image?
  {
    var w := Writes(SaveEffects(s));
    SaveWrites(s);
    forall i | 0 <= i < |MakeJson(s).photos| ensures w[i].0 == MakeJson(s).photos[i] && w[i].1.Image? {
      var p := s.photos[i];
      assert w[i] == (FilenameOf(p), Image(p.blob));
      assert MakeJson(s).photos[i] == FilenameOf(p);
    }
  }

  /** The writes of a plan go to distinct names when its photo names are
      distinct and differ from the sheet's and the record's names, which
      differ from each other. */
  lemma PlanNamesDistinct(plan: SavePlan)
    requires forall i, j :: 0 <= i < j < |plan.photos| ==> plan.photos[i].name != plan.photos[j].name
    requires forall i :: 0 <= i < |plan.photos| ==> plan.photos[i].name != plan.csvName && plan.photos[i].name != plan.jsonName
    requires plan.csvName != plan.jsonName
    ensures var w := Writes(Effects(plan));
      forall i, j :: 0 <= i < j < |w| ==> w[i].0 != w[j].0
  {
    PlanWrites(plan);
  }

  /** A name ending in `.jpg`, as every photo filename does, is never a
      `.csv` or `.json` name. */
  lemma JpgNotSheet(f: string, id: string)
    requires |f| >= 4 && f[|f| - 4..] == ".jpg"
    ensures f != id + ".csv" && f != id + ".json"
  {
    var csv, json := id + ".csv", id + ".json";
    assert csv[|csv| - 4..] == ".csv";
    assert json[|json| - 4..] == "json";
  }

  /** In a well-formed session no two writes of a save share a file name:
      photo names are distinct and end in `.jpg`, unlike the sheet and the
      record. */
  lemma SaveWriteNamesDistinct(s: State)
    requires WellFormed(s) && s.currentLoc.Some?
    ensures var w := Writes(SaveEffects(s));
      forall i, j :: 0 <= i < j < |w| ==> w[i].0 != w[j].0
  {
    var plan := PlanOf(s);
    var id := s.currentLoc.value.locationId;
    FilenamesUnique(s);
    forall i, j | 0 <= i < j < |plan.photos| ensures plan.photos[i].name != plan.photos[j].name {
      assert plan.photos[i].name == FilenameOf(s.photos[i]);
      assert plan.photos[j].name == FilenameOf(s.photos[j]);
    }
    forall i | 0 <= i < |plan.photos| ensures plan.photos[i].name != plan.csvName && plan.photos[i].name != plan.jsonName {
      var p := s.photos[i];
      JpgNotSheet(PhotoFilename(p.locationId, SampleId(p.sample), p.number), id);
    }
    assert |plan.csvName| != |plan.jsonName|;
    PlanNamesDistinct(plan);
  }

  /** Saving again right after a save performs exactly the same effects: the
      same files are written over, and every photo is logged again. */
  lemma SaveAgainRepeatsEffects(s: State)
    requires CloseSave(s).step.outcome.Done?
    ensures SaveEffects(CloseSave(s).step.state) == SaveEffects(s)
  {
  }

  lemma SavePreservesWellFormed(s: State)
    requires WellFormed(s)
    ensures WellFormed(CloseSave(s).step.state)
  {
    PushAllBounded(s.log, Entries(s.project, s.photos));
  }
}

=== FILE: text.dfy ===
/** The JavaScript string built-ins the session core relies on: `String(n)`
    for integers, `padStart`, `replace(/[^0-9]/g, "")`, `Array.join` and
    `split` with a one-character separator, together with a decimal parser
    that serves as their inverse in the proofs. */
module Text {

  /** `[0-9]` */
  predicate IsDigit(c: char) {
    '0' <= c <= '9'
  }

  predicate AllDigits(s: string) {
    forall i :: 0 <= i < |s| ==> IsDigit(s[i])
  }

  function DigitChar(d: nat): (c: char)
    requires d < 10
    ensures IsDigit(c) && DigitValue(c) == d
  {
    ('0' as int + d) as char
  }

  function DigitValue(c: char): (d: int)
    ensures IsDigit(c) ==> 0 <= d < 10
  {
    c as int - '0' as int
  }

  /** `String(n)` for a non-negative integer: its shortest decimal numeral. */
  function Decimal(n: nat): (r: string)
    ensures 1 <= |r| && AllDigits(r)
    ensures |r| == 1 <==> n < 10
    ensures r[0] == '0' ==> n == 0
    ensures r[|r| - 1] == DigitChar(n % 10)
    decreases n
  {
    if n < 10 then [DigitChar(n)] else Decimal(n / 10) + [DigitChar(n % 10)]
  }

  /** `String(n)` for any integer: a minus sign in front of negative numbers. */
  function IntString(n: int): (r: string)
    ensures n >= 0 ==> AllDigits(r) && ParseDecimal(r) == n
    ensures n < 0 ==> |r| >= 2 && r[0] == '-' && AllDigits(r[1..]) && ParseDecimal(r[1..]) == -n
  {
    if n < 0 then
      DecimalRoundTrip(-n);
      assert ("-" + Decimal(-n))[1..] == Decimal(-n);
      "-" + Decimal(-n)
    else
      DecimalRoundTrip(n);
      Decimal(n)
  }

  /** The value of a string of decimal digits, most significant digit first
      (only meaningful when every character is a digit). */
  function ParseDecimal(s: string): (v: int)
    ensures AllDigits(s) ==> v >= 0
  {
    if s == [] then 0 else 10 * ParseDecimal(s[..|s| - 1]) + DigitValue(s[|s| - 1])
  }

  lemma ParseTwoDigits(s: string)
    requires |s| == 2 && AllDigits(s)
    ensures ParseDecimal(s) == 10 * DigitValue(s[0]) + DigitValue(s[1])
  {
    assert s[..1][..0] == [];
    assert ParseDecimal(s[..1]) == DigitValue(s[0]);
  }

  /** Reading back the numeral `String(n)` yields `n`. */
  lemma {:induction false} DecimalRoundTrip(n: nat)
    ensures ParseDecimal(Decimal(n)) == n
    decreases n
  {
    if n >= 10 {
      var d := Decimal(n / 10);
      assert Decimal(n) == d + [DigitChar(n % 10)];
      assert (d + [DigitChar(n % 10)])[..|d|] == d;
      DecimalRoundTrip(n / 10);
    }
  }

  /** Two numerals that are the same string denote the same number. */
  lemma DecimalInjective(m: nat, n: nat)
    requires Decimal(m) == Decimal(n)
    ensures m == n
  {
    DecimalRoundTrip(m);
    DecimalRoundTrip(n);
  }

  function Repeat(c: char, n: nat): (r: string)
    ensures |r| == n
    ensures forall i :: 0 <= i < n ==> r[i] == c
  {
    seq(n, i => c)
  }

  /** `s.padStart(width, fill)` with a one-character `fill`: left-pads to AT
      LEAST `width` characters and never truncates a longer string. */
  function PadStart(s: string, width: nat, fill: char): (r: string)
    ensures |r| == if |s| < width then width else |s|
    ensures r[|r| - |s|..] == s
    ensures forall i :: 0 <= i < |r| - |s| ==> r[i] == fill
  {
    if |s| < width then Repeat(fill, width - |s|) + s else s
  }

  /** Leading zeros do not change the value of a numeral. */
  lemma {:induction false} ParseIgnoresLeadingZeros(k: nat, s: string)
    requires AllDigits(s)
    ensures AllDigits(Repeat('0', k) + s)
    ensures ParseDecimal(Repeat('0', k) + s) == ParseDecimal(s)
    decreases |s|
  {
    var z := Repeat('0', k);
    assert AllDigits(z + s) by {
      forall i | 0 <= i < |z + s| ensures IsDigit((z + s)[i]) {
        if i < k { assert (z + s)[i] == '0'; } else { assert (z + s)[i] == s[i - k]; }
      }
    }
    if s == [] {
      assert z + s == z;
      ZerosParseToZero(k);
    } else {
      var init := s[..|s| - 1];
      assert (z + s)[..|z + s| - 1] == z + init;
      ParseIgnoresLeadingZeros(k, init);
    }
  }

  lemma {:induction false} ZerosParseToZero(k: nat)
    ensures AllDigits(Repeat('0', k))
    ensures ParseDecimal(Repeat('0', k)) == 0
    decreases k
  {
    if k > 0 {
      assert Repeat('0', k)[..k - 1] == Repeat('0', k - 1);
      ZerosParseToZero(k - 1);
    }
  }

  /** Zero-padding a string of digits to any width keeps its value. */
  lemma PaddedRoundTrip(d: string, width: nat)
    requires AllDigits(d)
    ensures AllDigits(PadStart(d, width, '0'))
    ensures ParseDecimal(PadStart(d, width, '0')) == ParseDecimal(d)
  {
    if |d| < width {
      assert PadStart(d, width, '0') == Repeat('0', width - |d|) + d;
      ParseIgnoresLeadingZeros(width - |d|, d);
    }
  }

  /** Zero-padding a numeral to any width keeps its value, so the padded
      numeral still identifies the number it was made from. */
  lemma PaddedDecimalRoundTrip(n: nat, width: nat)
    ensures AllDigits(PadStart(Decimal(n), width, '0'))
    ensures ParseDecimal(PadStart(Decimal(n), width, '0')) == n
  {
    PaddedRoundTrip(Decimal(n), width);
    DecimalRoundTrip(n);
  }

  /** `s.replace(/[^0-9]/g, "")`: the digits of `s`, in order. */
  function KeepDigits(s: string): (r: string)
    ensures AllDigits(r) && |r| <= |s|
    ensures (forall i :: 0 <= i < |s| ==> !IsDigit(s[i])) ==> r == []
  {
    if s == [] then []
    else if IsDigit(s[0]) then [s[0]] + KeepDigits(s[1..])
    else KeepDigits(s[1..])
  }

  /** Removing non-digits is done piecewise. */
  lemma {:induction false} KeepDigitsAppend(a: string, b: string)
    ensures KeepDigits(a + b) == KeepDigits(a) + KeepDigits(b)
    decreases |a|
  {
    if a == [] {
      assert a + b == b;
    } else {
      assert (a + b)[1..] == a[1..] + b;
      KeepDigitsAppend(a[1..], b);
    }
  }

  /** A string of digits is left as it is. */
  lemma {:induction false} KeepDigitsOfDigits(s: string)
    requires AllDigits(s)
    ensures KeepDigits(s) == s
    decreases |s|
  {
    if s != [] {
      KeepDigitsOfDigits(s[1..]);
    }
  }

  /** `parts.join(sep)` */
  function Join(parts: seq<string>, sep: string): string
  {
    if |parts| == 0 then ""
    else if |parts| == 1 then parts[0]
    else parts[0] + sep + Join(parts[1..], sep)
  }

  /** `s.split(d)` for a one-character separator `d`: the pieces between the
      occurrences of `d`, always at least one, none containing `d`. */
  function Split(s: string, d: char): (r: seq<string>)
    ensures |r| >= 1
    ensures forall i :: 0 <= i < |r| ==> d !in r[i]
    decreases |s|
  {
    if s == [] then [""]
    else
      var rest := Split(s[1..], d);
      if s[0] == d then [""] + rest else [[s[0]] + rest[0]] + rest[1..]
  }

  lemma {:induction false} SplitWithoutSeparator(a: string, d: char)
    requires d !in a
    ensures Split(a, d) == [a]
    decreases |a|
  {
    if a != [] {
      SplitWithoutSeparator(a[1..], d);
      assert [a[0]] + a[1..] == a;
    }
  }

  lemma {:induction false} SplitAtFirstSeparator(a: string, b: string, d: char)
    requires d !in a
    ensures Split(a + [d] + b, d) == [a] + Split(b, d)
    decreases |a|
  {
    var s := a + [d] + b;
    if a == [] {
      assert s[0] == d && s[1..] == b;
    } else {
      assert s[0] == a[0] && s[1..] == a[1..] + [d] + b;
      SplitAtFirstSeparator(a[1..], b, d);
      assert [a[0]] + a[1..] == a;
    }
  }

  /** Splitting a joined list at its separator gives the list back, as long
      as no element contains the separator. */
  lemma {:induction false} SplitJoinRoundTrip(lines: seq<string>, d: char)
    requires |lines| >= 1
    requires forall i :: 0 <= i < |lines| ==> d !in lines[i]
    ensures Split(Join(lines, [d]), d) == lines
    decreases |lines|
  {
    if |lines| == 1 {
      SplitWithoutSeparator(lines[0], d);
    } else {
      SplitAtFirstSeparator(lines[0], Join(lines[1..], [d]), d);
      SplitJoinRoundTrip(lines[1..], d);
      assert [lines[0]] + lines[1..] == lines;
    }
  }
}

=== FILE: wrappers.dfy ===
/** An optional value, standing in for a JavaScript value that may be `null`. */
module Wrappers {

  datatype Option<+T> = None | Some(value: T) {

    /** `x ?? default` */
    function GetOr(default: T): T {
      match this
      case Some(v) => v
      case None => default
    }
  }
}
